=== FILE: README.md ===
# PlantsVsZombies game rules in Dafny

This project models the game-rule core of the PlantsVsZombies WPF game. It is a lane-based tower-defence game: plants are placed on a grid of field cells, and zombies walk in from the right along their row. The model covers:

- **economy and session rules** (`GameService`): new games, placement checks and the sun debit, score and difficulty stepping, sky suns, the game-over marker, sun pickup;
- **per-tick entity behaviour**: the zombie's eat-or-walk step and one-shot kill latch, the plants' timed shooting and sun emission, and the field cell's plant placement;
- **session lifecycle**: the view model's frame tick, game-over handling, score recording and guarded placement, and the game view's action tick, spawn rule, event handlers, drop mapping and pausing;
- **persistence and accounts**: the live/persisted collection sync of a game session, and the account service's sign-up, sign-in, best-three scores and saved session;
- **small helpers**: the location carousel's navigation, the checkerboard cell shading, and the health-bar converters.

Everything is a pure function over immutable datatypes. A mutating C# method becomes a function from the old state to the new state. Events raised by entities come back as a list that the caller's handlers consume. The clock (`DateTime.Now`), `System.Random` draws and the loaded configuration are parameters. Positions, health, score and times are `real`. Object identity (C# references, `List.Remove(obj)`) is a numeric `id` on each plant, zombie, bullet and sun. A field cell refers to its plant by id; the plant itself lives in the session's plant collection.

Files, one module each:

| file | module | models |
|---|---|---|
| results.dfy | Results | `Option`, and `Result` with the exceptions the code throws |
| config.dfy | Config | enums and the configuration record (Models/GameConfig.cs) |
| collections.dfy | Collections | LINQ `Any`, `FirstOrDefault`, `Max`, and `List.Remove` by identity |
| entities.dfy | Entities | plant, zombie, bullet and sun records; plant row and column |
| plants.dfy | Plants | BasePlant, PlantShooter1, PlantShooter2, PlantShield, PlantGenerator |
| field_cell.dfy | FieldCells | FieldCell |
| zombies.dfy | Zombies | BaseZombie, with the ZombieBoy and ZombieGirl stats |
| game_session.dfy | Sessions | GameSession |
| game_service.dfy | GameService | GameService |
| top_scores.dfy | TopScores | `OrderByDescending(s => s).Take(3)` |
| user_service.dfy | Users | UserService, on its in-memory user list |
| game_view_model.dfy | ViewModel | GameViewModel |
| game_view.dfy | GameScreen | the game-rule parts of GameView |
| location_carousel.dfy | Carousel | LocationCarousel |
| graphics_provider.dfy | Graphics | GraphicsProvider.GetLocationCellColor |
| health_bar.dfy | HealthBar | HealthToPercentageConverter, HealthToColorConverter |

Modelling decisions:

- **Mismatched call sites.** The repository is mid-refactor, and several call sites do not match their callees. Each method is modelled as written in its own file:
  - GameViewModel calls a three-argument `UpdateGame`, but the service takes four. The model passes the extra, unused cell size.
  - GameViewModel's `PickupSun(x, y)` calls an overload that does not exist. It is left out.
  - `RectOnDrop` uses a result that `FieldCell.PlacePlant` never returns. It is left out; `GameField_Drop` is modelled.
  - GameView sets a bullet's `ParentPlantType` and subscribes to its `KillRequested` (GameView.xaml.cs:298-304), but Bullet.cs declares neither. The model's bullet has a `parentPlantType` field and no kill event.
  - BaseZombie clears the cell's plant through a setter that FieldCell declares private. The model performs the clearing the zombie's code intends: the cell's plant reference becomes empty.
- **Class hierarchy.** FieldCell.cs and GameSession.cs name the older `Models.Plant` and `Models.Zombie` classes. The model uses the newer Models/Plant and Models/Zombie classes throughout.
- **Enum values.** The enum declarations are not part of this model's sources, so these are assumed:
  - The spawn timer's `(ZombieType)1` is ZombieBoy and `(ZombieType)2` is ZombieGirl.
  - `ZombieState` has Alive (the default), Dying and Dead.
  - Integers outside the named members of an enum are kept as `Unnamed…` values, so that the throwing switch arms can be modelled.
- **Config.**
  - A config lookup that would throw `KeyNotFoundException` is a precondition: `GetPlantConfig`, the plant and zombie constructors, and Shooter2's `ShootDelay` being set.
  - The entities read `Game.FPS`, which GameConfig.cs does not declare. It is the settings field `fps`, and it is required to be positive.
- **Clock and cell size.**
  - `DateTime` values are seconds on a line where `DateTime.MinValue` is 0.
  - Shooter1 (PlantShooter1.cs:28, :31) and the generator (PlantGenerator.cs:32, :34) each read `DateTime.Now` twice in one action, once for the test and once for the timer reset. The model reads the clock once per action.
  - The board's cell size is required to be positive.
- **Events.** A plant event carries the plant as it was before the event's timer reset. The handlers read only the plant's kind and cell, which the reset does not change.
- **Unreachable game over.** `CheckGameOver`, `FallSunFromSky` and `IncreaseDifficulty` are private. Of the three, only `IncreaseDifficulty` is called (by `UpdateGame`). So nothing in the code modelled here ever sets the score to the game-over marker. The view model's game-over path is reached only by a session whose score is already negative. `ViewModel.GameOverRecordsNoScore` shows that this path never records a score.
- **Cell shading off the board.** A negative row or column does not always throw: with C#'s truncating `%`, row -1 and column 1 give index 0 and a colour (GraphicsProvider.cs:82). `Graphics.NegativeCoordinates` states exactly when it throws.
- **Event wiring.** Every plant and zombie in the session is assumed wired as `RectOnDrop` (GameView.xaml.cs:239-245) or the spawn handler (GameView.xaml.cs:127) would wire it. In the code, the constructor and `SetupEventHandlers` attach no per-entity handler. So the plants and zombies of a resumed session raise events that nobody handles: a restored generator adds no sun, and a restored shooter adds no bullet. The model does not keep a set of subscribed entities, so it handles those events too.

## Model

| member | source | states |
|---|---|---|
| Config.ZombieTypeOfCode | PlantsVsZombies/Views/GameView.xaml.cs:102 | the `(ZombieType)` cast of a spawn code: 1 is ZombieBoy, 2 is ZombieGirl, and no other code gives either |
| Collections.Any | PlantsVsZombies/Services/UserService.cs:70 | LINQ `Any` is true iff some element satisfies the predicate |
| Collections.FirstIndex | PlantsVsZombies/Services/UserService.cs:89 | `FirstOrDefault` finds the first element satisfying the predicate, and nothing iff none does |
| Collections.RemoveFirst | PlantsVsZombies/Views/GameView.xaml.cs:290 | `List.Remove` leaves the list alone when the object is absent, and otherwise removes exactly one element and adds none |
| Collections.RemoveFirstMultiset | PlantsVsZombies/Views/GameView.xaml.cs:140 | what `List.Remove` removes is exactly one copy of the first matching element; every other element stays |
| Collections.Max | PlantsVsZombies/ViewModels/GameViewModel.cs:119 | LINQ `Max` of a non-empty list is one of its elements and at least every element |
| Plants.Kill | PlantsVsZombies/Models/Plant/BasePlant.cs:15-18 | Kill raises exactly one KillRequested carrying the plant and changes nothing |
| Plants.KillIsNotLatched | PlantsVsZombies/Models/Plant/BasePlant.cs:15-18 | n Kill calls raise KillRequested n times: unlike the zombie, the plant keeps no latch |
| Plants.SpawnBullet | PlantsVsZombies/Models/Plant/BasePlant.cs:20-23 | SpawnBullet raises one BulletSpawnRequested carrying the plant and changes no state |
| Plants.NewShooter1 | PlantsVsZombies/Models/Plant/PlantShooter1.cs:10-23 | a new Shooter1 is Idle with health equal to max health from the Shooter1 entry; its shot delay is Shooter2's, and its timer starts at the minimum time |
| Plants.NewShooter2 | PlantsVsZombies/Models/Plant/PlantShooter2.cs:9-18 | a new Shooter2 is Idle with health equal to max health from its entry; it has no timed action |
| Plants.NewShield | PlantsVsZombies/Models/Plant/PlantShield.cs:9-16 | a new Shield is Idle with health equal to max health from its entry; it has no timed action |
| Plants.NewGenerator | PlantsVsZombies/Models/Plant/PlantGenerator.cs:10-23 | a new Generator is Idle with health equal to max health from the Generator entry; it emits every SunFallInterval, timed from its construction |
| Plants.Shooter1IgnoresOwnShootDelay | PlantsVsZombies/Models/Plant/PlantShooter1.cs:19 | changing Shooter1's own ShootDelay entry does not change a new Shooter1 |
| Plants.MakeAction | PlantsVsZombies/Models/Plant/PlantShooter1.cs:24-33 | a shooter fires iff some zombie in its row is at or right of its column (no cell counts as 0) and the delay has elapsed; a generator emits iff its interval has elapsed. A firing raises exactly one event and resets the timer to now; otherwise nothing changes; Shooter2 and Shield never act |
| Plants.GeneratorIgnoresZombies | PlantsVsZombies/Models/Plant/PlantGenerator.cs:30-37 | a generator's action is the same whatever zombies are passed |
| Plants.FirstTickWithTargetShoots | PlantsVsZombies/Models/Plant/PlantShooter1.cs:23-33 | since the timer starts at the minimum time, a new Shooter1's first tick with a qualifying zombie fires |
| Plants.FiringsAreSpaced | PlantsVsZombies/Models/Plant/PlantShooter1.cs:28-31 | over any run of ticks, consecutive firings of a timed plant are at least one delay apart, and the first is at least one delay after the timer's start |
| Plants.FiringsAreTickTimes | PlantsVsZombies/Models/Plant/PlantShooter1.cs:28-31 | every firing time recorded over a run is the clock reading of one of its ticks |
| Plants.SpacedAccumulates | PlantsVsZombies/Models/Plant/PlantGenerator.cs:32-35 | with spaced firings, the k-th firing is at least k+1 delays after the start |
| Plants.EmissionsBounded | PlantsVsZombies/Models/Plant/PlantGenerator.cs:23-36 | up to a horizon, a generator emits at most (horizon - start) / interval suns, whatever the tick rate |
| Plants.NoEmissionBeforeFirstInterval | PlantsVsZombies/Models/Plant/PlantGenerator.cs:23-36 | a new generator emits nothing on ticks before one full interval after its construction |
| Plants.AtMostTwoSunsInTwelveSeconds | PlantsVsZombies/Models/Plant/PlantGenerator.cs:19-36 | with a 5-second interval, a generator placed at time 0 emits at most 2 suns in 12 seconds, however often it ticks |
| Plants.RunAppend | PlantsVsZombies/Models/Plant/PlantGenerator.cs:30-37 | acting over two runs of ticks in turn is acting over the first, then over the second from where the first left the plant; the emissions concatenate |
| Plants.QuietGenerator | PlantsVsZombies/Models/Plant/PlantGenerator.cs:32-36 | a generator whose interval has not elapsed on any tick keeps its timer and emits nothing |
| Plants.FireThenQuiet | PlantsVsZombies/Models/Plant/PlantGenerator.cs:32-36 | a generator due on the first tick, and not due again within the run, emits exactly once, at that tick, and restarts its timer there |
| Plants.TwoSunsInTwelveSecondsAtSixtyFps | PlantsVsZombies/Models/Plant/PlantGenerator.cs:19-36 | at 60 frames per second over frames 0 to 720 (12 seconds), a generator placed at time 0 with a 5-second interval emits exactly two suns, at 5 s and 10 s |
| FieldCells.PlacePlant | PlantsVsZombies/VisualControls/FieldCell.cs:30-39 | placing succeeds iff the kind is one of the four named kinds, and otherwise throws. The cell keeps its row and column and now refers to a new Idle plant of exactly that kind, whose cell is this cell, so the plant's row and column are the cell's. Its behaviour is that kind's: a generator's sun timer starts now with the SunFallInterval period, a Shooter1 fires on Shooter2's delay from the minimum time, and Shooter2 and Shield have no timed action |
| FieldCells.PlacePlantOverwrites | PlantsVsZombies/VisualControls/FieldCell.cs:32 | placing on an occupied cell replaces the plant without any occupancy check |
| Zombies.Ceiling | PlantsVsZombies/Models/Zombie/BaseZombie.cs:54 | `(int)Math.Ceiling(x)` is the least integer at or above x |
| Zombies.NewZombie | PlantsVsZombies/Models/Zombie/BaseZombie.cs:14-22 | a new zombie stands at X = CellSize·Columns + 0.5·CellSize and Y = CellSize·Row + 0.1·CellSize. It takes health (equal to max health), speed and damage from its kind's entry, and starts Alive with no cell and the latch open |
| Zombies.Kill | PlantsVsZombies/Models/Zombie/BaseZombie.cs:25-31 | Kill raises KillRequested iff the latch was open, and always leaves it closed |
| Zombies.KillRaisesAtMostOnce | PlantsVsZombies/Models/Zombie/BaseZombie.cs:24-33 | over any number of Kill calls, KillRequested is raised at most once, and exactly once iff there was a call and the latch was open |
| Zombies.CellAfterMove | PlantsVsZombies/Models/Zombie/BaseZombie.cs:54-58 | the column is ceil((X + 0.5·CellSize)/CellSize); the current cell moves to index column-1 of the row only when 1 <= column <= Columns, otherwise it stays |
| Zombies.MakeAction | PlantsVsZombies/Models/Zombie/BaseZombie.cs:35-60 | a dead zombie does nothing. With a plant in its cell it stays put and the plant loses exactly Damage/FPS health; if that leaves health <= 0, the plant's Kill is raised and the cell is emptied. Otherwise X drops by exactly Speed·CellSize/120/FPS and the cell is recomputed in bounds. Health, speed, damage and row never change |
| Zombies.WalkOnEmptyRow | PlantsVsZombies/Models/Zombie/BaseZombie.cs:50-58 | on a row without plants, n actions move a live zombie left by exactly n strides and leave the row empty |
| Zombies.TicksToEdge | PlantsVsZombies/Models/Zombie/BaseZombie.cs:53 | a tick count after which a walker of that stride is at or past the left edge |
| Zombies.ReachesLeftEdge | PlantsVsZombies/Models/Zombie/BaseZombie.cs:53 | a live zombie with positive speed on a row without plants reaches X <= 0 |
| Sessions.SyncToObservable | PlantsVsZombies/Models/GameSession.cs:42-59 | each live collection becomes its persisted list, element for element and in order; the lists and every scalar and bookmark are untouched |
| Sessions.SyncFromObservable | PlantsVsZombies/Models/GameSession.cs:61-67 | each persisted list becomes a copy of its live collection; the live collections and every scalar and bookmark are untouched |
| Sessions.SyncRoundTrip | PlantsVsZombies/Models/GameSession.cs:42-67 | syncing from the live collections and back leaves all four live collections and the scalars unchanged |
| Sessions.SyncToObservableIdempotent | PlantsVsZombies/Models/GameSession.cs:42-59 | a second SyncToObservable changes nothing |
| Sessions.Deserialize | PlantsVsZombies/Models/GameSession.cs:19-40 | the live collections are not serialised and come back empty; everything else is restored from the saved form |
| Sessions.PersistRoundTrip | PlantsVsZombies/Models/GameSession.cs:19-67 | saving and loading again restores the live collections, the scalars and the bookmarks |
| GameService.CreateNewGame | PlantsVsZombies/Services/GameService.cs:19-34 | a new game has score 0, all three bookmarks 0, no per-row bookmarks, balance = SunValue, the given location and difficulty, and no entities |
| GameService.CanAffordPlant | PlantsVsZombies/Services/GameService.cs:48-52 | true iff the balance is at least the kind's cost |
| GameService.CanPlacePlant | PlantsVsZombies/Services/GameService.cs:36-46 | false outside the board or where a plant already reports that row and column; otherwise exactly CanAffordPlant |
| GameService.PlacePlant | PlantsVsZombies/Services/GameService.cs:54-63 | unchanged when CanPlacePlant is false; otherwise only the balance changes, lowered by exactly the cost. No plant is added, and a non-negative balance stays non-negative |
| GameService.BalanceStaysNonNegative | PlantsVsZombies/Services/GameService.cs:54-63 | over any series of placement attempts, a non-negative balance stays non-negative and the plant collection is unchanged |
| GameService.IncreaseDifficulty | PlantsVsZombies/Services/GameService.cs:97-107 | before the interval has passed nothing changes. After it, the difficulty rises by one iff it was below the maximum, and the bookmark becomes now. Only these two fields change, and the difficulty never falls |
| GameService.UpdateGame | PlantsVsZombies/Services/GameService.cs:65-71 | the score grows by exactly deltaTime; nothing but score, difficulty and the difficulty bookmark changes |
| GameService.DifficultyStaysInRange | PlantsVsZombies/Services/GameService.cs:97-107 | over any series of updates the difficulty never decreases, never exceeds max(start, MaxDifficulty), and rises by at most one per update. The score grows by the deltas and the balance and entities are untouched |
| GameService.FallSunFromSky | PlantsVsZombies/Services/GameService.cs:73-95 | before the interval nothing changes. After it, exactly one sun is appended and the bookmark becomes now. The sun starts at the top, not from a generator, animating, at a random X in [0, Columns·CellSize - 20), and targets a random Y in [50, 50 + Rows·CellSize - 100) |
| GameService.ScaledDrawInRange | PlantsVsZombies/Services/GameService.cs:77-78 | a `NextDouble` draw times a non-negative span lies in [0, span) |
| GameService.CheckGameOver | PlantsVsZombies/Services/GameService.cs:109-115 | the score becomes -1 if some zombie has X <= 0, and the session is unchanged otherwise |
| GameService.PickupSun | PlantsVsZombies/Services/GameService.cs:117-122 | always returns true and always credits SunValue. The first sun with the picked sun's id is cut out and every other sun stays in order; the collection is untouched if there is none |
| GameService.PickupIsNotIdempotent | PlantsVsZombies/Services/GameService.cs:117-122 | picking the same sun up twice credits SunValue twice |
| GameService.TwoShootersSpendTheStartingSun | PlantsVsZombies/Services/GameService.cs:36-63 | on a 5x9 board with 50 sun and a 25-sun Shooter1, two placements leave 0 and a third is refused, leaving the balance unchanged |
| GameService.SameCellIsChargedTwice | PlantsVsZombies/Services/GameService.cs:54-62 | since no plant is recorded, placing twice on the same free cell is allowed and charged twice |
| TopScores.Insert | PlantsVsZombies/Services/UserService.cs:114 | inserting into a non-increasing list keeps it non-increasing, adds exactly the new value, and keeps any upper bound of both |
| TopScores.SortDescending | PlantsVsZombies/Services/UserService.cs:114 | `OrderByDescending` yields a non-increasing permutation of its input |
| TopScores.Top3 | PlantsVsZombies/Services/UserService.cs:114 | `Take(3)` of the sorted scores gives min(3, n) values in non-increasing order, drawn from the input, with nothing left out larger than anything kept |
| TopScores.PrefixDominatesRest | PlantsVsZombies/Services/UserService.cs:114 | in a non-increasing list, whatever a prefix leaves out is at most every element of the prefix |
| TopScores.Top3KeepsTheBest | PlantsVsZombies/Services/UserService.cs:114 | the first kept score is at least every input score |
| Users.SignUp | PlantsVsZombies/Services/UserService.cs:67-83 | a taken login is refused and changes nothing; otherwise exactly one user is appended, with the hashed password and no scores |
| Users.SignUpKeepsLoginsUnique | PlantsVsZombies/Services/UserService.cs:67-83 | sign-up keeps logins unique |
| Users.SignIn | PlantsVsZombies/Services/UserService.cs:85-96 | succeeds iff some user has that login and the hash of that password, and that user becomes current; a failure changes nothing |
| Users.SignOut | PlantsVsZombies/Services/UserService.cs:98-101 | there is no current user afterwards; the users are untouched |
| Users.Resolve | PlantsVsZombies/Services/UserService.cs:109 | the current user's login always finds a user; with unique logins it is the current user itself |
| Users.UpdateUserScore | PlantsVsZombies/Services/UserService.cs:103-117 | without a current user nothing changes. Otherwise only the resolved user changes: their scores become Top3 of the old scores plus the new one, and they become current |
| Users.UpdatedScoresAreTopThree | PlantsVsZombies/Services/UserService.cs:113-114 | after recording, the user holds at most three scores, best first, drawn from the old scores and the new one, with no better one dropped |
| Users.UpdateKeepsCurrentUser | PlantsVsZombies/Services/UserService.cs:103-117 | with unique logins, recording a score keeps the same current user and keeps logins unique |
| Users.SaveGameSession | PlantsVsZombies/Services/UserService.cs:119-133 | without a current user nothing changes. Otherwise the session, its lists synced from its live collections, is stored on the resolved user, who becomes current |
| Users.LoadGameSession | PlantsVsZombies/Services/UserService.cs:135-143 | nothing is returned without a current user holding a session; otherwise the stored session is returned with its live collections refilled from its lists |
| Users.ClearGameSession | PlantsVsZombies/Services/UserService.cs:145-158 | without a current user nothing changes; otherwise the resolved user holds no session, so a later load returns nothing |
| Users.SaveThenLoad | PlantsVsZombies/Services/UserService.cs:119-143 | saving then loading a session gives back the same entities, scalars and bookmarks |
| ViewModel.NewGameVm | PlantsVsZombies/ViewModels/GameViewModel.cs:54-66 | a new view model starts its timer and clock, unpaused, with no menu, no selection and no notification |
| ViewModel.ToggleMenu | PlantsVsZombies/ViewModels/GameViewModel.cs:68-72 | flips IsMenuVisible and nothing else |
| ViewModel.ToggleMenuTwice | PlantsVsZombies/ViewModels/GameViewModel.cs:68-72 | toggling twice restores the view model |
| ViewModel.ContinueGame | PlantsVsZombies/ViewModels/GameViewModel.cs:74-78 | sets IsMenuVisible to false and nothing else |
| ViewModel.SelectPlant | PlantsVsZombies/ViewModels/GameViewModel.cs:88-95 | a null argument changes nothing; otherwise only the selection changes, to the argument |
| ViewModel.EndGame | PlantsVsZombies/ViewModels/GameViewModel.cs:152-161 | stops the timer and returns to the main menu. It records the score only when it is > 0, and always clears the saved session |
| ViewModel.Tick | PlantsVsZombies/ViewModels/GameViewModel.cs:97-131 | paused or with the menu open, nothing happens. Otherwise the session is updated with the time since start and a 0.016 delta. A negative score then ends the game before any best-score check; otherwise the notification shows exactly when the user has scores and the score beats all of them, and then only the session and the notification change |
| ViewModel.GameOverRecordsNoScore | PlantsVsZombies/ViewModels/GameViewModel.cs:97-113 | when a tick ends the game, no user's scores change, the timer stops and the screen returns to the menu |
| ViewModel.PlacePlant | PlantsVsZombies/ViewModels/GameViewModel.cs:133-140 | when CanPlacePlant is false nothing changes; otherwise only the balance drops by the cost |
| ViewModel.GuardIsRedundant | PlantsVsZombies/ViewModels/GameViewModel.cs:133-140 | the view model's guard repeats the service's: its placement equals the service's placement |
| ViewModel.CanAffordPlant | PlantsVsZombies/ViewModels/GameViewModel.cs:49-52 | true iff the balance is at least the kind's cost |
| ViewModel.QuitGame | PlantsVsZombies/ViewModels/GameViewModel.cs:80-86 | stops the timer, saves the session for the current user and returns to the menu |
| ViewModel.QuitThenResume | PlantsVsZombies/ViewModels/GameViewModel.cs:80-86 | after quitting, loading the saved session gives back the entities and scalars the game had at the moment of quitting (sessions are values here: see Left out) |
| GameScreen.BulletFor | PlantsVsZombies/Views/GameView.xaml.cs:294-305 | a requested bullet carries the plant's kind and row, at X = plant.Column·cellSize |
| GameScreen.SunLandsInPlantCell | PlantsVsZombies/Views/GameView.xaml.cs:256-264 | a generator's sun lies in the lower-right quarter of the generator's cell: its centre plus offsets in [0, cellSize/4) |
| GameScreen.Dispatch | PlantsVsZombies/Views/GameView.xaml.cs:252-305 | a plant kill removes that plant from the collection; a bullet request appends one bullet; a sun request appends the same sun twice. Nothing else in the session changes |
| GameScreen.DispatchAll | PlantsVsZombies/Views/GameView.xaml.cs:252-305 | handling a series of plant events leaves the board, the zombies and the scalars alone, only appends bullets and suns, and only removes plants |
| GameScreen.ZombieActs | PlantsVsZombies/Views/GameView.xaml.cs:70-73 | one zombie's action changes only that zombie's position and cell, and keeps the board and every zombie well placed. The plant collection only shrinks, and bullets and suns are untouched |
| GameScreen.ZombiePhase | PlantsVsZombies/Views/GameView.xaml.cs:70-73 | after every zombie of the snapshot acts, the zombies are the same in number and body, plants only shrink, and bullets, suns and scalars are untouched |
| GameScreen.PlantActs | PlantsVsZombies/Views/GameView.xaml.cs:80-83 | one plant's action keeps the plants' number and identities and the zombies, and only appends bullets and suns |
| GameScreen.PlantPhase | PlantsVsZombies/Views/GameView.xaml.cs:80-83 | after every plant of the snapshot acts, the same holds for the whole phase |
| GameScreen.ActionTick | PlantsVsZombies/Views/GameView.xaml.cs:68-84 | zombies act first and plants see them where the zombie phase left them (the bullet phase changes nothing). Zombies keep number and body, plants only shrink, bullets and suns only grow, scalars are untouched, and the board stays well formed |
| GameScreen.SpawnZombie | PlantsVsZombies/Views/GameView.xaml.cs:107-131 | a ZombieBoy or ZombieGirl is appended to the collection, fresh at the right edge of the given row, and gets a visual; any other kind throws |
| GameScreen.SpawnTick | PlantsVsZombies/Views/GameView.xaml.cs:94-105 | a zombie is spawned iff the draw in [0,99] is <= Difficulty, in the drawn row (rows as configured, GameView.xaml.cs:192-193) and of the kind the drawn code names. It is appended and given a visual; the rest of the session is untouched. Otherwise nothing changes |
| GameScreen.SpawnChanceFollowsDifficulty | PlantsVsZombies/Views/GameView.xaml.cs:98-99 | at difficulty >= 99 every spawn tick spawns; below 0 none does |
| GameScreen.ZombieKilled | PlantsVsZombies/Views/GameView.xaml.cs:133-150 | the kill handler removes the zombie from the collection and drops its visual; nothing else in the session changes |
| GameScreen.KillZombieAt | PlantsVsZombies/Views/GameView.xaml.cs:127-150 | killing a zombie whose latch is open removes exactly that zombie (its first occurrence by identity) from the collection, drops its visual and leaves the rest of the session untouched; with the latch already closed nothing but the zombie entries is touched (SecondKillIsIgnored: not even those) |
| GameScreen.SecondKillIsIgnored | PlantsVsZombies/Models/Zombie/BaseZombie.cs:25-31 | killing an already killed zombie changes nothing |
| GameScreen.Truncate | PlantsVsZombies/Views/GameView.xaml.cs:693-694 | `(int)` truncates toward zero |
| GameScreen.DropCellContainsPoint | PlantsVsZombies/Views/GameView.xaml.cs:693-694 | for a point on the field, the computed row and column are those of the cell containing it |
| GameScreen.GameFieldDrop | PlantsVsZombies/Views/GameView.xaml.cs:686-703 | a drop asks the view model to place only when the truncated row and column are on the configured board, which is the view's board (GameView.xaml.cs:192-193), and otherwise changes nothing |
| GameScreen.DropJustLeftOfBoardLandsInColumnZero | PlantsVsZombies/Views/GameView.xaml.cs:693-696 | truncation maps a drop less than one cell left of the board to column 0 |
| GameScreen.Pause | PlantsVsZombies/Views/GameView.xaml.cs:170-175 | all three game timers stop |
| GameScreen.Continue | PlantsVsZombies/Views/GameView.xaml.cs:177-182 | all three game timers start |
| GameScreen.PauseThenContinue | PlantsVsZombies/Views/GameView.xaml.cs:170-182 | pausing then continuing a running game restores it |
| GameScreen.LoneZombieEndsGame | PlantsVsZombies/Services/GameService.cs:109-115 | a zombie alone on a row without plants walks to the left edge, and the game-over check then sets the score to -1 |
| Carousel.IndexOf | PlantsVsZombies/VisualControls/LocationCarousel.xaml.cs:101 | `List.IndexOf` gives the first position of the value, or -1 iff it is absent |
| Carousel.NavigateLeft | PlantsVsZombies/VisualControls/LocationCarousel.xaml.cs:99-106 | moves to the previous location iff the index is > 0; otherwise nothing changes |
| Carousel.NavigateRight | PlantsVsZombies/VisualControls/LocationCarousel.xaml.cs:108-115 | moves to the next location iff the index is < Count-1, otherwise nothing changes; a selection missing from a non-empty list moves to the first location |
| Carousel.Buttons | PlantsVsZombies/VisualControls/LocationCarousel.xaml.cs:133-141 | left is enabled iff the index is > 0; right iff the index is < Count-1 |
| Carousel.ButtonsMatchNavigation | PlantsVsZombies/VisualControls/LocationCarousel.xaml.cs:99-141 | with distinct locations, an arrow is enabled iff pressing it changes the selection |
| Carousel.NavigationStaysInList | PlantsVsZombies/VisualControls/LocationCarousel.xaml.cs:99-115 | a selection in the list stays in the list under either arrow |
| Carousel.LeftRightRoundTrip | PlantsVsZombies/VisualControls/LocationCarousel.xaml.cs:99-115 | with distinct locations, right undoes left and left undoes right |
| Carousel.Loaded | PlantsVsZombies/VisualControls/LocationCarousel.xaml.cs:39-51 | a non-empty list that lacks the selection resets it to the first location; afterwards the selection is in any non-empty list |
| Carousel.ScrollOffset | PlantsVsZombies/VisualControls/LocationCarousel.xaml.cs:117-131 | no scroll for a missing selection; otherwise the offset is the centring position index·400 − viewport/2 + 200, or 0 when that is negative |
| Carousel.ScrollFollowsSelection | PlantsVsZombies/VisualControls/LocationCarousel.xaml.cs:122-130 | for any viewport width, a card further right never scrolls less |
| Graphics.CsRem | PlantsVsZombies/Helpers/GraphicsProvider.cs:82 | C#'s `%` agrees with the mathematical remainder for non-negative numbers and is non-positive, above -divisor, for negative ones |
| Graphics.CsRemTwo | PlantsVsZombies/Helpers/GraphicsProvider.cs:82 | `x % 2` is 0 exactly for even x, 1 for odd non-negative x, and -1 for odd negative x |
| Graphics.GetLocationCellColor | PlantsVsZombies/Helpers/GraphicsProvider.cs:80-103 | an unknown location throws; otherwise a colour is returned iff row%2 + column%2 is in 0..2, and the cell throws otherwise |
| Graphics.BoardCellsHaveAColour | PlantsVsZombies/Helpers/GraphicsProvider.cs:82-100 | for non-negative row and column the index is the sum of parities and a colour is always returned |
| Graphics.ColourDependsOnParity | PlantsVsZombies/Helpers/GraphicsProvider.cs:82-100 | on the board the colour depends only on the parities of row and column |
| Graphics.NegativeCoordinates | PlantsVsZombies/Helpers/GraphicsProvider.cs:82-101 | a negative row with column 0 or -1 gives a negative index and throws, but a negative row with column 1 does not |
| Graphics.NeighboursDiffer | PlantsVsZombies/Helpers/GraphicsProvider.cs:82-100 | cells adjacent across a row or a column get different indices and so different colours |
| Graphics.ParityFlips | PlantsVsZombies/Helpers/GraphicsProvider.cs:82 | consecutive integers have different C# remainders modulo 2 |
| HealthBar.Clamp01 | PlantsVsZombies/VisualControls/HealthBar.xaml.cs:47 | the clamp lies in [0,1] and is the identity on [0,1] |
| HealthBar.FilledWidth | PlantsVsZombies/VisualControls/HealthBar.xaml.cs:39-51 | 0 unless given exactly three doubles with maxHealth > 0; otherwise a width in [0, max(0, width-2)] |
| HealthBar.FilledWidthMonotone | PlantsVsZombies/VisualControls/HealthBar.xaml.cs:47-50 | for fixed maxHealth and width, the filled width never decreases as health grows |
| HealthBar.FullHealthFillsBar | PlantsVsZombies/VisualControls/HealthBar.xaml.cs:47-50 | at full health the bar fills the whole width inside the border |
| HealthBar.GetHealthColor | PlantsVsZombies/VisualControls/HealthBar.xaml.cs:78-107 | a fraction > 0.6 gives the emerald band; one in (0.3, 0.6] gives the yellow/orange band with a factor in (0,1]; one <= 0.3 gives the red band with a factor in [0,1] |
| HealthBar.HealthColorOf | PlantsVsZombies/VisualControls/HealthBar.xaml.cs:61-71 | Gray exactly when the input is not two doubles with maxHealth > 0; otherwise the band of the clamped fraction health/maxHealth: Emerald iff > 0.6, YellowOrange iff in (0.3, 0.6], Red iff ≤ 0.3 |
| HealthBar.ColorBandMonotone | PlantsVsZombies/VisualControls/HealthBar.xaml.cs:61-107 | more health never moves the bar to a lower colour band |

## Left out

- Loading the configuration (ConfigService.cs) and reading or writing users.json: file I/O. The configuration is a parameter, and the user list lives in memory.
- SHA-256 password hashing: a foreign library call. It is the parameter `hash`, and nothing is assumed about it, not even injectivity.
- `Bullet.MakeAction`: it is called by the action tick but not defined in the bullet class, so the bullet phase changes nothing.
- The sky-sun timer's handler and `SummonSun`: both have empty bodies.
- Sun expiry, the zombie Dying state's grace delay, and the per-row spawn bookmarks: nothing in the code acts on them.
- GameViewModel.PickupSun(x, y) and GameView.RectOnDrop: they call an overload or use a return value that does not exist.
- Timers, the dispatcher, `Task.Delay` and collection-change notifications: concurrency plumbing. One timer callback is one sequential function, and a handler invoked through the dispatcher runs at once.
- Hiding the best-score notification after three seconds: a delayed UI callback.
- Rendering, drag preview, images, visuals and navigation: UI.
- `HealthBar.GetHealthColor`: the byte rounding of the interpolated channels is not modelled, only the band and its factor, because IEEE doubles and byte casts are out of scope.
- Floating point in general: positions, health, score and times are exact reals. The 60-frames-per-second clock of `Plants.TwoSunsInTwelveSecondsAtSixtyFps` reads exactly k/60 on frame k; timer jitter is not modelled.
- 32-bit integer overflow: `SunBalance`, `Difficulty`, costs and the configured sun value are C# `int`s (GameSession.cs:17), so `SunBalance += SunValue` (GameService.cs:120) would wrap past 2^31 - 1. The model keeps them unbounded, so wrap-around is not modelled.
- Aliasing between the stored and the live session: sessions and entities are values here. In C#, `SaveGameSession` stores the very session object (UserService.cs:128). `QuitGame` (GameViewModel.cs:80-86) stops only the view model's timer, and the view's action timer stops only on `Paused`, which nothing in GameViewModel.cs raises. So after a quit the action timer keeps moving the zombie objects held in the saved lists, and a resume returns them moved on. The model's saved session is a snapshot taken at the quit.
- `GameScreen.ActionTick`: each plant's sun-offset draws are given as a list, one pair per plant.
- `GameScreen.ActionTick`: bullet and sun visuals are not tracked; only zombie visuals are kept, as the set `zombieCells`.
- The carousel's null checks: the location list is never null in the model.

=== FILE: collections.dfy ===
/**
  The LINQ and List operations the game code applies to its collections:
  `Any`, `Remove` (by object identity) and `Max`.  Object identity is
  modelled by a numeric id, supplied through `idOf`.
 */
module Collections {

  import opened Results

  /** LINQ `Any(pred)`. */
  function Any<T>(s: seq<T>, pred: T -> bool): (b: bool)
    ensures b <==> exists i :: 0 <= i < |s| && pred(s[i])
  {
    if |s| == 0 then false
    else pred(s[0]) || Any(s[1..], pred)
  }

  /** LINQ `FirstOrDefault(pred)`, as the position of the first element
      satisfying `pred`, if there is one. */
  function FirstIndex<T>(s: seq<T>, pred: T -> bool): (r: Option<nat>)
    ensures r.Some? ==> r.value < |s| && pred(s[r.value])
    ensures r.Some? ==> forall j :: 0 <= j < r.value ==> !pred(s[j])
    ensures r.None? <==> forall j :: 0 <= j < |s| ==> !pred(s[j])
  {
    if |s| == 0 then None
    else if pred(s[0]) then Some(0)
    else match FirstIndex(s[1..], pred)
      case None => None
      case Some(k) => Some(k + 1)
  }

  /** The position of the first element whose id is `id`, if there is one. */
  function IndexOfId<T>(s: seq<T>, idOf: T -> nat, id: nat): (r: Option<nat>)
    ensures r.Some? ==> r.value < |s| && idOf(s[r.value]) == id
    ensures r.Some? ==> forall j :: 0 <= j < r.value ==> idOf(s[j]) != id
    ensures r.None? <==> forall j :: 0 <= j < |s| ==> idOf(s[j]) != id
  {
    if |s| == 0 then None
    else if idOf(s[0]) == id then Some(0)
    else match IndexOfId(s[1..], idOf, id)
      case None => None
      case Some(k) => Some(k + 1)
  }

  /** `List<T>.Remove(item)`: drops the first element that is the same
      object as the item, and leaves the list alone when there is none. */
  function RemoveFirst<T>(s: seq<T>, idOf: T -> nat, id: nat): (r: seq<T>)
    ensures IndexOfId(s, idOf, id).None? ==> r == s
    ensures IndexOfId(s, idOf, id).Some? ==> |r| == |s| - 1
    ensures forall x :: x in r ==> x in s
  {
    match IndexOfId(s, idOf, id)
    case None => s
    case Some(k) => s[..k] + s[k + 1..]
  }

  /** Removing one element leaves every other element, with multiplicity. */
  lemma RemoveFirstMultiset<T>(s: seq<T>, idOf: T -> nat, id: nat)
    requires IndexOfId(s, idOf, id).Some?
    ensures var k := IndexOfId(s, idOf, id).value;
      && |RemoveFirst(s, idOf, id)| == |s| - 1
      && multiset(RemoveFirst(s, idOf, id)) + multiset{s[k]} == multiset(s)
  {
    var k := IndexOfId(s, idOf, id).value;
    assert RemoveFirst(s, idOf, id) == s[..k] + s[k + 1..];
    MultisetWithout(s, k);
  }

  /** Cutting out position `k` removes exactly one copy of `s[k]`. */
  lemma MultisetWithout<T>(s: seq<T>, k: nat)
    requires k < |s|
    ensures multiset(s[..k] + s[k + 1..]) + multiset{s[k]} == multiset(s)
  {
    var before, after := s[..k], s[k + 1..];
    assert s == before + ([s[k]] + after);
    assert multiset(before + after) == multiset(before) + multiset(after);
    assert multiset(s) == multiset(before) + (multiset{s[k]} + multiset(after));
  }

  /** The ids that occur in `s`. */
  function Ids<T>(s: seq<T>, idOf: T -> nat): set<nat>
  {
    set i | 0 <= i < |s| :: idOf(s[i])
  }

  /** LINQ `Max()` of a non-empty sequence. */
  function Max(s: seq<real>): (m: real)
    requires |s| > 0
    ensures m in s
    ensures forall i :: 0 <= i < |s| ==> s[i] <= m
  {
    if |s| == 1 then s[0]
    else
      var rest := Max(s[1..]);
      if s[0] >= rest then s[0] else rest
  }
}

=== FILE: config.dfy ===
/**
  The configuration record the game reads once at start-up, shaped like
  GameConfig.cs, and the enumerations it is keyed by.  Loading it from disk
  is not part of this model: every operation receives it as a parameter.
 */
module Config {

  import opened Results

  /** Plant kinds.  A C# enum variable can hold any integer; values outside
      the four named members are represented by `UnnamedPlantType`. */
  datatype PlantType = Shooter1 | Shooter2 | Shield | Generator | UnnamedPlantType(code: int)
  {
    predicate IsNamed() { !UnnamedPlantType? }
  }

  /** Zombie kinds; `UnnamedZombieType` as for plants. */
  datatype ZombieType = ZombieBoy | ZombieGirl | UnnamedZombieType(code: int)

  /** Board themes; `UnnamedLocation` as for plants. */
  datatype LocationType = GrassLawn | SandBeach | UnnamedLocation(code: int)

  /** The `(ZombieType)code` cast used by the spawn timer, which draws codes
      from {1, 2}: code 1 is ZombieBoy and code 2 is ZombieGirl. */
  function ZombieTypeOfCode(code: int): (t: ZombieType)
    ensures t.ZombieBoy? <==> code == 1
    ensures t.ZombieGirl? <==> code == 2
  {
    if code == 1 then ZombieBoy
    else if code == 2 then ZombieGirl
    else UnnamedZombieType(code)
  }

  datatype FieldConfig = FieldConfig(rows: int, columns: int, cellSize: int)

  datatype PlantConfig = PlantConfig(
    health: int,
    cost: int,
    shootDelay: Option<real>,
    bulletsPerSpray: Option<int>,
    bulletSpeed: Option<real>,
    sunGenerationInterval: Option<real>,
    sunDropRange: Option<real>,
    sunValue: Option<int>)

  datatype ZombieConfig = ZombieConfig(health: int, speed: real, damage: int)

  /** Global settings.  `fps` is read by the entities as `Game.FPS`. */
  datatype GameSettings = GameSettings(
    fps: real,
    zombieSpawnMinDelay: real,
    sunFallInterval: real,
    sunValue: int,
    sunPickupTimeout: real,
    difficultyIncreaseInterval: real,
    initialDifficulty: int,
    maxDifficulty: int,
    zombiesPerDifficulty: int)

  datatype GameConfig = GameConfig(
    field: FieldConfig,
    plants: map<PlantType, PlantConfig>,
    zombies: map<ZombieType, ZombieConfig>,
    game: GameSettings)

  /** The entries the plant constructors read: one per named plant kind, and
      the Shooter2 shot delay (which Shooter1 reads as well). */
  predicate HasPlantEntries(cfg: GameConfig)
  {
    && Shooter1 in cfg.plants && Shooter2 in cfg.plants
    && Shield in cfg.plants && Generator in cfg.plants
    && cfg.plants[Shooter2].shootDelay.Some?
  }

  /** The entries the zombie constructors read. */
  predicate HasZombieEntries(cfg: GameConfig)
  {
    ZombieBoy in cfg.zombies && ZombieGirl in cfg.zombies
  }
}

=== FILE: entities.dfy ===
/**
  The records of the simulation: plants and zombies of the Models/Plant and
  Models/Zombie hierarchy, and the Bullet and Sun data holders.  Each record
  carries an `id` standing for the identity of the C# object, so that two
  distinct objects with equal fields stay distinct.
 */
module Entities {

  import opened Results
  import opened Config

  /** The (Row, Column) of a field cell; both are init-only on the cell, so
      they identify it. */
  datatype CellRef = CellRef(row: int, column: int)

  datatype PlantState = Idle | Active

  /** The private timer a plant subclass keeps: PlantShooter1 its shot delay
      and last shot, PlantGenerator its sun delay and last emission;
      PlantShooter2 and PlantShield keep none. */
  datatype Routine =
    | Shooting(shootDelay: real, lastShootTime: real)
    | Generating(spawnSunDelay: real, lastSpawnTime: real)
    | NoRoutine

  /** A BasePlant; `kind` is the concrete subclass (its `Type` override). */
  datatype Plant = Plant(
    id: nat,
    kind: PlantType,
    health: real,
    maxHealth: real,
    state: PlantState,
    fieldCell: Option<CellRef>,
    routine: Routine)

  /** BasePlant.Row: the attached cell's row, or 0 without a cell. */
  function PlantRow(p: Plant): int
  {
    if p.fieldCell.Some? then p.fieldCell.value.row else 0
  }

  /** BasePlant.Column: the attached cell's column, or 0 without a cell. */
  function PlantColumn(p: Plant): int
  {
    if p.fieldCell.Some? then p.fieldCell.value.column else 0
  }

  function PlantIdOf(p: Plant): nat { p.id }

  datatype ZombieState = Alive | Dying | Dead

  /** A BaseZombie.  `kind` is the concrete subclass (ZombieBoy or
      ZombieGirl); `columns`, `cellSize`, `row` and `y` are fixed by the
      constructor; `currentCell` is the cell the zombie last entered;
      `killRequested` is the private latch of Kill. */
  datatype Zombie = Zombie(
    id: nat,
    kind: ZombieType,
    row: int,
    columns: int,
    cellSize: real,
    x: real,
    y: real,
    health: real,
    maxHealth: real,
    speed: real,
    damage: real,
    currentCell: Option<CellRef>,
    state: ZombieState,
    killRequested: bool)

  /** `CurrentFieldCell?.Column ?? 0`. */
  function ZombieColumn(z: Zombie): int
  {
    if z.currentCell.Some? then z.currentCell.value.column else 0
  }

  function ZombieIdOf(z: Zombie): nat { z.id }

  /** A projectile as created by the view: the firing plant's kind and row,
      and its horizontal position. */
  datatype Bullet = Bullet(id: nat, parentPlantType: PlantType, row: int, x: real)

  function BulletIdOf(b: Bullet): nat { b.id }

  /** A collectible sun. */
  datatype Sun = Sun(
    id: nat,
    x: real,
    y: real,
    spawnTime: real,
    isFromGenerator: bool,
    targetY: real,
    targetX: real,
    velocityY: real,
    startX: real,
    startY: real,
    isAnimating: bool)

  function SunIdOf(s: Sun): nat { s.id }

  /** A sun with only its position set, every other field at its default. */
  function SunAt(id: nat, x: real, y: real): Sun
  {
    Sun(id, x, y, 0.0, false, 0.0, 0.0, 0.0, 0.0, 0.0, false)
  }
}

=== FILE: field_cell.dfy ===
/**
  A cell of the board (VisualControls/FieldCell.cs): fixed row and column,
  and a reference to the plant standing in it.  The plant object itself is
  kept in the session's plant collection; the cell refers to it by id.
 */
module FieldCells {

  import opened Results
  import opened Config
  import opened Entities
  import Plants

  datatype FieldCell = FieldCell(row: int, column: int, plant: Option<nat>)

  function Ref(c: FieldCell): CellRef
  {
    CellRef(c.row, c.column)
  }

  /** FieldCell.PlacePlant: builds a plant of the requested kind attached to
      this cell and makes it the cell's plant, replacing any plant already
      there.  The switch has no default arm, so an unnamed kind throws. */
  function PlacePlant(c: FieldCell, cfg: GameConfig, t: PlantType, id: nat, now: real): (r: Result<(FieldCell, Plant)>)
    requires HasPlantEntries(cfg)
    ensures r.Ok? <==> t.IsNamed()
    ensures r.Throws? ==> r.fault == SwitchExpressionUnmatched
    ensures r.Ok? ==>
      var (cell, p) := r.value;
      && cell.row == c.row && cell.column == c.column
      && cell.plant == Some(id)
      && p.id == id && p.kind == t && p.state == Idle
      && p.fieldCell == Some(Ref(c))
      && PlantRow(p) == c.row && PlantColumn(p) == c.column
      && p.health == p.maxHealth == cfg.plants[t].health as real
      && p.routine == (match t
                       case Generator => Generating(cfg.game.sunFallInterval, now)
                       case Shooter1 => Shooting(cfg.plants[Shooter2].shootDelay.value, Plants.MinTime)
                       case _ => NoRoutine)
  {
    var cell := Some(Ref(c));
    var made: Result<Plant> :=
      match t
      case Shield => Ok(Plants.NewShield(cfg, id, cell))
      case Generator => Ok(Plants.NewGenerator(cfg, id, cell, now))
      case Shooter1 => Ok(Plants.NewShooter1(cfg, id, cell))
      case Shooter2 => Ok(Plants.NewShooter2(cfg, id, cell))
      case UnnamedPlantType(_) => Throws(SwitchExpressionUnmatched);
    match made
    case Ok(p) => Ok((c.(plant := Some(p.id)), p))
    case Throws(f) => Throws(f)
  }

  /** Placing on an occupied cell drops the reference to the old plant. */
  lemma PlacePlantOverwrites(c: FieldCell, cfg: GameConfig, t: PlantType, id: nat, now: real)
    requires HasPlantEntries(cfg) && t.IsNamed()
    requires c.plant.Some? && c.plant.value != id
    ensures PlacePlant(c, cfg, t, id, now).Ok?
    ensures PlacePlant(c, cfg, t, id, now).value.0.plant != c.plant
  {
  }
}

=== FILE: game_service.dfy ===
/**
  The game service (Services/GameService.cs): new-game set-up, placement
  rules and the sun economy, score and difficulty stepping, sky suns, the
  game-over marker and sun pickup.  Each mutating C# method is a function
  from the old session to the new one; the service's config and random
  source are parameters.
 */
module GameService {

  import opened Results
  import opened Config
  import opened Entities
  import Collections
  import opened Sessions

  /** `GetPlantConfig`: the dictionary lookup by the type's name.  A missing
      key throws in C#; here it is a precondition of every caller. */
  function GetPlantConfig(cfg: GameConfig, t: PlantType): PlantConfig
    requires t in cfg.plants
  {
    cfg.plants[t]
  }

  function Cost(cfg: GameConfig, t: PlantType): int
    requires t in cfg.plants
  {
    GetPlantConfig(cfg, t).cost
  }

  /** A fresh session: score zero, every bookmark at zero, no per-row
      bookmarks, the balance at the configured sun value, and (after the
      sync from the empty lists) no entities at all. */
  function CreateNewGame(cfg: GameConfig, location: LocationType, initialDifficulty: int): (s: Session)
    ensures s.location == location && s.difficulty == initialDifficulty
    ensures s.score == 0.0 && s.sunBalance == cfg.game.sunValue
    ensures s.lastZombieSpawnTime == 0.0 && s.lastSunFallTime == 0.0
    ensures s.lastDifficultyIncreaseTime == 0.0 && s.lastZombieSpawnTimeByRow == map[]
    ensures s.plants == [] && s.zombies == [] && s.bullets == [] && s.suns == []
    ensures SameLive(s, SyncToObservable(s))
  {
    var session := EmptySession(location).(difficulty := initialDifficulty, sunBalance := cfg.game.sunValue);
    SyncToObservable(session)
  }

  /** The board bounds test. */
  predicate InField(cfg: GameConfig, row: int, column: int)
  {
    0 <= row < cfg.field.rows && 0 <= column < cfg.field.columns
  }

  /** Some plant of the session reports this row and column. */
  predicate Occupied(plants: seq<Plant>, row: int, column: int)
  {
    exists i :: 0 <= i < |plants| && PlantRow(plants[i]) == row && PlantColumn(plants[i]) == column
  }

  /** `CanAffordPlant`. */
  function CanAffordPlant(cfg: GameConfig, s: Session, t: PlantType): (b: bool)
    requires t in cfg.plants
    ensures b <==> Cost(cfg, t) <= s.sunBalance
  {
    s.sunBalance >= GetPlantConfig(cfg, t).cost
  }

  /** `CanPlacePlant`: inside the board, no plant already reporting that
      position, and enough sun. */
  function CanPlacePlant(cfg: GameConfig, s: Session, row: int, column: int, t: PlantType): (b: bool)
    requires t in cfg.plants
    ensures !InField(cfg, row, column) ==> !b
    ensures Occupied(s.plants, row, column) ==> !b
    ensures InField(cfg, row, column) && !Occupied(s.plants, row, column) ==> (b <==> CanAffordPlant(cfg, s, t))
  {
    if row < 0 || row >= cfg.field.rows || column < 0 || column >= cfg.field.columns then false
    else if Collections.Any(s.plants, (p: Plant) => PlantRow(p) == row && PlantColumn(p) == column) then false
    else s.sunBalance >= GetPlantConfig(cfg, t).cost
  }

  /** `PlacePlant`: when the placement is allowed, only the balance changes,
      lowered by the cost; the plant itself is not added to the session. */
  function PlacePlant(cfg: GameConfig, s: Session, row: int, column: int, t: PlantType): (r: Session)
    requires t in cfg.plants
    ensures !CanPlacePlant(cfg, s, row, column, t) ==> r == s
    ensures CanPlacePlant(cfg, s, row, column, t) ==>
      r == s.(sunBalance := s.sunBalance - Cost(cfg, t))
    ensures r.plants == s.plants
    ensures s.sunBalance >= 0 ==> r.sunBalance >= 0
  {
    if !CanPlacePlant(cfg, s, row, column, t) then s
    else s.(sunBalance := s.sunBalance - GetPlantConfig(cfg, t).cost)
  }

  /** A non-negative balance stays non-negative over any series of
      placement attempts. */
  datatype Attempt = Attempt(row: int, column: int, kind: PlantType)

  function PlaceAll(cfg: GameConfig, s: Session, attempts: seq<Attempt>): Session
    requires forall i :: 0 <= i < |attempts| ==> attempts[i].kind in cfg.plants
    decreases |attempts|
  {
    if |attempts| == 0 then s
    else PlaceAll(cfg, PlacePlant(cfg, s, attempts[0].row, attempts[0].column, attempts[0].kind), attempts[1..])
  }

  lemma {:induction false} BalanceStaysNonNegative(cfg: GameConfig, s: Session, attempts: seq<Attempt>)
    requires forall i :: 0 <= i < |attempts| ==> attempts[i].kind in cfg.plants
    requires s.sunBalance >= 0
    ensures PlaceAll(cfg, s, attempts).sunBalance >= 0
    ensures PlaceAll(cfg, s, attempts).plants == s.plants
    decreases |attempts|
  {
    if |attempts| > 0 {
      var a := attempts[0];
      BalanceStaysNonNegative(cfg, PlacePlant(cfg, s, a.row, a.column, a.kind), attempts[1..]);
    }
  }

  /** `IncreaseDifficulty`: once the interval has passed since the last
      bookmark, the difficulty goes up by one unless it is already at the
      maximum, and the bookmark moves to now. */
  function IncreaseDifficulty(cfg: GameConfig, s: Session, currentTime: real): (r: Session)
    ensures currentTime - s.lastDifficultyIncreaseTime < cfg.game.difficultyIncreaseInterval ==> r == s
    ensures currentTime - s.lastDifficultyIncreaseTime >= cfg.game.difficultyIncreaseInterval ==>
      && r.lastDifficultyIncreaseTime == currentTime
      && (s.difficulty < cfg.game.maxDifficulty <==> r.difficulty == s.difficulty + 1)
      && (s.difficulty >= cfg.game.maxDifficulty <==> r.difficulty == s.difficulty)
    ensures r == s.(difficulty := r.difficulty, lastDifficultyIncreaseTime := r.lastDifficultyIncreaseTime)
    ensures s.difficulty <= r.difficulty
    ensures r.difficulty <= cfg.game.maxDifficulty || r.difficulty == s.difficulty
  {
    if currentTime - s.lastDifficultyIncreaseTime >= cfg.game.difficultyIncreaseInterval then
      var d := if s.difficulty < cfg.game.maxDifficulty then s.difficulty + 1 else s.difficulty;
      s.(difficulty := d, lastDifficultyIncreaseTime := currentTime)
    else s
  }

  /** `UpdateGame`: the score grows by exactly the elapsed delta and the
      difficulty steps; nothing else changes.  The cell size is unused. */
  function UpdateGame(cfg: GameConfig, s: Session, currentTime: real, deltaTime: real, cellSize: real): (r: Session)
    ensures r.score == s.score + deltaTime
    ensures r == s.(score := r.score, difficulty := r.difficulty,
                    lastDifficultyIncreaseTime := r.lastDifficultyIncreaseTime)
    ensures s.difficulty <= r.difficulty
    ensures r.difficulty <= cfg.game.maxDifficulty || r.difficulty == s.difficulty
  {
    IncreaseDifficulty(cfg, s.(score := s.score + deltaTime), currentTime)
  }

  /** Updates at a series of times. */
  function UpdateAll(cfg: GameConfig, s: Session, times: seq<real>, deltaTime: real): Session
    decreases |times|
  {
    if |times| == 0 then s
    else UpdateAll(cfg, UpdateGame(cfg, s, times[0], deltaTime, 0.0), times[1..], deltaTime)
  }

  function MaxInt(a: int, b: int): int { if a >= b then a else b }

  /** Over any number of updates the difficulty never falls, never passes
      the larger of its start and the maximum, rises by at most one per
      update, and the score grows by the deltas. */
  lemma {:induction false} DifficultyStaysInRange(cfg: GameConfig, s: Session, times: seq<real>, deltaTime: real)
    ensures var r := UpdateAll(cfg, s, times, deltaTime);
      && s.difficulty <= r.difficulty <= MaxInt(s.difficulty, cfg.game.maxDifficulty)
      && r.difficulty <= s.difficulty + |times|
      && r.score == s.score + (|times| as real) * deltaTime
      && r.sunBalance == s.sunBalance && SameLive(r, s)
    decreases |times|
  {
    if |times| > 0 {
      var s1 := UpdateGame(cfg, s, times[0], deltaTime, 0.0);
      DifficultyStaysInRange(cfg, s1, times[1..], deltaTime);
      var r := UpdateAll(cfg, s1, times[1..], deltaTime);
      assert r.score == s.score + deltaTime + ((|times| - 1) as real) * deltaTime;
    }
  }

  /** `FallSunFromSky`, with the two `NextDouble` draws as parameters and
      the new sun's identity as `id`: once the sky interval has passed, a
      sun is appended that starts at the top at a random column position
      and falls towards a random height, and the bookmark moves to now. */
  function FallSunFromSky(cfg: GameConfig, s: Session, currentTime: real, cellSize: real,
                          drawX: real, drawY: real, id: nat): (r: Session)
    requires 0.0 <= drawX < 1.0 && 0.0 <= drawY < 1.0
    ensures currentTime - s.lastSunFallTime < cfg.game.sunFallInterval ==> r == s
    ensures currentTime - s.lastSunFallTime >= cfg.game.sunFallInterval ==>
      && r == s.(suns := r.suns, lastSunFallTime := currentTime)
      && |r.suns| == |s.suns| + 1 && r.suns[..|s.suns|] == s.suns
      && var sun := r.suns[|s.suns|];
         && sun.id == id && sun.spawnTime == currentTime
         && sun.y == 0.0 && sun.startY == 0.0 && sun.velocityY == 0.0
         && sun.startX == sun.x && sun.targetX == sun.x
         && !sun.isFromGenerator && sun.isAnimating
         && var width := (cfg.field.columns as real) * cellSize - 20.0;
            var height := (cfg.field.rows as real) * cellSize - 100.0;
            && (width >= 0.0 ==> 0.0 <= sun.x && (width > 0.0 ==> sun.x < width))
            && (height >= 0.0 ==> 50.0 <= sun.targetY && (height > 0.0 ==> sun.targetY < 50.0 + height))
  {
    if currentTime - s.lastSunFallTime >= cfg.game.sunFallInterval then
      var width := (cfg.field.columns as real) * cellSize - 20.0;
      var height := (cfg.field.rows as real) * cellSize - 100.0;
      var sunX := drawX * width;
      var targetY := 50.0 + drawY * height;
      ScaledDrawInRange(drawX, width);
      ScaledDrawInRange(drawY, height);
      var sun := Sun(id, sunX, 0.0, currentTime, false, targetY, sunX, 0.0, sunX, 0.0, true);
      s.(suns := s.suns + [sun], lastSunFallTime := currentTime)
    else s
  }

  /** A `NextDouble` draw scaled by a non-negative span stays inside it. */
  lemma ScaledDrawInRange(draw: real, span: real)
    requires 0.0 <= draw < 1.0
    ensures span >= 0.0 ==> 0.0 <= draw * span
    ensures span > 0.0 ==> draw * span < span
  {
    if span > 0.0 {
      assert (1.0 - draw) * span > 0.0;
    }
  }

  /** Some zombie has reached the left edge of the board. */
  predicate ZombieAtEdge(zombies: seq<Zombie>)
  {
    exists i :: 0 <= i < |zombies| && zombies[i].x <= 0.0
  }

  /** `CheckGameOver`: the score becomes the marker -1 exactly when some
      zombie is at or past the left edge; nothing else changes. */
  function CheckGameOver(s: Session): (r: Session)
    ensures ZombieAtEdge(s.zombies) ==> r.score == -1.0
    ensures !ZombieAtEdge(s.zombies) ==> r == s
    ensures r == s.(score := r.score)
  {
    if Collections.Any(s.zombies, (z: Zombie) => z.x <= 0.0) then s.(score := -1.0) else s
  }

  /** `PickupSun`: removes the sun (if it is still there), credits the
      configured sun value regardless, and reports success. */
  function PickupSun(cfg: GameConfig, s: Session, sun: Sun, currentTime: real): (r: (Session, bool))
    ensures r.1
    ensures r.0.sunBalance == s.sunBalance + cfg.game.sunValue
    ensures r.0 == s.(suns := r.0.suns, sunBalance := r.0.sunBalance)
    ensures sun.id !in Collections.Ids(s.suns, SunIdOf) ==> r.0.suns == s.suns
    ensures sun.id in Collections.Ids(s.suns, SunIdOf) ==> |r.0.suns| == |s.suns| - 1
    ensures match Collections.IndexOfId(s.suns, SunIdOf, sun.id)
      case None => r.0.suns == s.suns
      case Some(k) => r.0.suns == s.suns[..k] + s.suns[k + 1..]
  {
    var suns := Collections.RemoveFirst(s.suns, SunIdOf, sun.id);
    (s.(suns := suns, sunBalance := s.sunBalance + cfg.game.sunValue), true)
  }

  /** Picking up the same sun twice credits the sun value twice: the second
      pickup finds nothing to remove but still pays. */
  lemma PickupIsNotIdempotent(cfg: GameConfig, s: Session, sun: Sun, t1: real, t2: real)
    requires sun in s.suns
    ensures var once := PickupSun(cfg, s, sun, t1).0;
      var twice := PickupSun(cfg, once, sun, t2).0;
      twice.sunBalance == s.sunBalance + 2 * cfg.game.sunValue
  {
  }

  /** A sample five-by-nine board with a fifty-sun start and a 25-sun
      Shooter1. */
  function SampleConfig(): (cfg: GameConfig)
    ensures Shooter1 in cfg.plants
  {
    var shooter := PlantConfig(100, 25, Some(1.5), None, None, None, None, None);
    GameConfig(FieldConfig(5, 9, 80),
               map[Shooter1 := shooter],
               map[],
               GameSettings(60.0, 5.0, 10.0, 50, 8.0, 30.0, 1, 10, 1))
  }

  /** Two Shooter1 placements on a fresh 5x9 game spend the fifty starting
      sun; a third attempt is refused and leaves the balance at zero. */
  lemma TwoShootersSpendTheStartingSun()
    ensures var cfg := SampleConfig();
      var s0 := CreateNewGame(cfg, GrassLawn, 1);
      var s1 := PlacePlant(cfg, s0, 0, 0, Shooter1);
      var s2 := PlacePlant(cfg, s1, 0, 1, Shooter1);
      var s3 := PlacePlant(cfg, s2, 0, 2, Shooter1);
      && s0.sunBalance == 50 && s1.sunBalance == 25 && s2.sunBalance == 0
      && !CanPlacePlant(cfg, s2, 0, 2, Shooter1) && s3 == s2
  {
    var cfg := SampleConfig();
    var s0 := CreateNewGame(cfg, GrassLawn, 1);
    assert !Occupied(s0.plants, 0, 0);
    var s1 := PlacePlant(cfg, s0, 0, 0, Shooter1);
    assert !Occupied(s1.plants, 0, 1);
  }

  /** Because the service never records the placed plant, a second
      placement on the same cell is allowed and charged again. */
  lemma SameCellIsChargedTwice(cfg: GameConfig, s: Session, row: int, column: int, t: PlantType)
    requires t in cfg.plants && cfg.plants[t].cost >= 0
    requires InField(cfg, row, column) && !Occupied(s.plants, row, column)
    requires s.sunBalance >= 2 * Cost(cfg, t)
    ensures var twice := PlacePlant(cfg, PlacePlant(cfg, s, row, column, t), row, column, t);
      twice.sunBalance == s.sunBalance - 2 * Cost(cfg, t) && twice.plants == s.plants
  {
  }
}

=== FILE: game_session.dfy ===
/**
  The game session (Models/GameSession.cs): scalar state, four live
  collections the game mutates, four plain lists that are what gets
  persisted, and the timing bookmarks.  The live collections are marked as
  not serialised; the two Sync operations copy between the two forms.
 */
module Sessions {

  import opened Config
  import opened Entities

  datatype Session = Session(
    location: LocationType,
    difficulty: int,
    score: real,
    sunBalance: int,
    // live collections (not serialised)
    plants: seq<Plant>,
    zombies: seq<Zombie>,
    bullets: seq<Bullet>,
    suns: seq<Sun>,
    // persisted lists
    plantsList: seq<Plant>,
    zombiesList: seq<Zombie>,
    bulletsList: seq<Bullet>,
    sunsList: seq<Sun>,
    lastZombieSpawnTime: real,
    lastSunFallTime: real,
    lastDifficultyIncreaseTime: real,
    lastZombieSpawnTimeByRow: map<int, real>)

  /** `new GameSession()`: every collection empty, every scalar at its
      default. */
  function EmptySession(location: LocationType): Session
  {
    Session(location, 0, 0.0, 0, [], [], [], [], [], [], [], [], 0.0, 0.0, 0.0, map[])
  }

  /** Location, difficulty, score, balance and every bookmark agree. */
  predicate SameScalars(a: Session, b: Session)
  {
    && a.location == b.location && a.difficulty == b.difficulty
    && a.score == b.score && a.sunBalance == b.sunBalance
    && a.lastZombieSpawnTime == b.lastZombieSpawnTime
    && a.lastSunFallTime == b.lastSunFallTime
    && a.lastDifficultyIncreaseTime == b.lastDifficultyIncreaseTime
    && a.lastZombieSpawnTimeByRow == b.lastZombieSpawnTimeByRow
  }

  /** The four live collections agree. */
  predicate SameLive(a: Session, b: Session)
  {
    a.plants == b.plants && a.zombies == b.zombies && a.bullets == b.bullets && a.suns == b.suns
  }

  /** The four persisted lists agree. */
  predicate SameLists(a: Session, b: Session)
  {
    a.plantsList == b.plantsList && a.zombiesList == b.zombiesList
    && a.bulletsList == b.bulletsList && a.sunsList == b.sunsList
  }

  /** SyncToObservable: each live collection is cleared and refilled from
      its list, in order. */
  function SyncToObservable(s: Session): (r: Session)
    ensures r.plants == s.plantsList && r.zombies == s.zombiesList
    ensures r.bullets == s.bulletsList && r.suns == s.sunsList
    ensures SameLists(r, s) && SameScalars(r, s)
  {
    s.(plants := s.plantsList, zombies := s.zombiesList, bullets := s.bulletsList, suns := s.sunsList)
  }

  /** SyncFromObservable: each list becomes a copy of its live collection. */
  function SyncFromObservable(s: Session): (r: Session)
    ensures r.plantsList == s.plants && r.zombiesList == s.zombies
    ensures r.bulletsList == s.bullets && r.sunsList == s.suns
    ensures SameLive(r, s) && SameScalars(r, s)
  {
    s.(plantsList := s.plants, zombiesList := s.zombies, bulletsList := s.bullets, sunsList := s.suns)
  }

  /** Copying out and back in leaves the live collections as they were. */
  lemma SyncRoundTrip(s: Session)
    ensures SameLive(SyncToObservable(SyncFromObservable(s)), s)
    ensures SameScalars(SyncToObservable(SyncFromObservable(s)), s)
  {
  }

  /** Refilling twice is the same as refilling once. */
  lemma SyncToObservableIdempotent(s: Session)
    ensures SyncToObservable(SyncToObservable(s)) == SyncToObservable(s)
  {
  }

  /** What the JSON serialiser writes: everything but the live collections. */
  datatype SavedSession = SavedSession(
    location: LocationType,
    difficulty: int,
    score: real,
    sunBalance: int,
    plantsList: seq<Plant>,
    zombiesList: seq<Zombie>,
    bulletsList: seq<Bullet>,
    sunsList: seq<Sun>,
    lastZombieSpawnTime: real,
    lastSunFallTime: real,
    lastDifficultyIncreaseTime: real,
    lastZombieSpawnTimeByRow: map<int, real>)

  function Serialize(s: Session): SavedSession
  {
    SavedSession(s.location, s.difficulty, s.score, s.sunBalance,
                 s.plantsList, s.zombiesList, s.bulletsList, s.sunsList,
                 s.lastZombieSpawnTime, s.lastSunFallTime, s.lastDifficultyIncreaseTime,
                 s.lastZombieSpawnTimeByRow)
  }

  /** Reading a saved session back: the ignored live collections come back
      empty (their initialisers), everything else from the saved form. */
  function Deserialize(d: SavedSession): (s: Session)
    ensures s.plants == [] && s.zombies == [] && s.bullets == [] && s.suns == []
    ensures Serialize(s) == d
  {
    Session(d.location, d.difficulty, d.score, d.sunBalance, [], [], [], [],
            d.plantsList, d.zombiesList, d.bulletsList, d.sunsList,
            d.lastZombieSpawnTime, d.lastSunFallTime, d.lastDifficultyIncreaseTime,
            d.lastZombieSpawnTimeByRow)
  }

  /** Saving (SyncFromObservable, then serialising) and loading
      (deserialising, then SyncToObservable) restores the live collections,
      the scalars and every bookmark. */
  lemma PersistRoundTrip(s: Session)
    ensures var back := SyncToObservable(Deserialize(Serialize(SyncFromObservable(s))));
      SameLive(back, s) && SameScalars(back, s)
  {
  }
}

=== FILE: game_view.dfy ===
/**
  The game screen's code-behind (Views/GameView.xaml.cs), reduced to its
  game rules: the action tick (every zombie, then every bullet, then every
  plant, each over a snapshot), the plant-event handlers that create
  bullets and suns or remove a dead plant, the zombie spawn rule and kill
  handler, the drop-to-cell mapping and pausing.  Timers are running flags;
  `System.Random` draws are parameters; `nextId` supplies the identity of
  each new object.
 */
module GameScreen {

  import opened Results
  import opened Config
  import opened Entities
  import opened FieldCells
  import Collections
  import Plants
  import Zombies
  import opened Sessions
  import GameService
  import ViewModel

  datatype View = View(
    vm: ViewModel.GameVm,
    cells: seq<seq<FieldCell>>,   // the field cells, one list per row
    rows: int,
    columns: int,
    cellSize: real,
    zombieCells: set<nat>,        // zombies that have a visual on the field
    sunTimer: bool,
    spawnTimer: bool,
    actionTimer: bool,
    nextId: nat)

  function Session(v: View): Sessions.Session { v.vm.session }

  function WithSession(v: View, s: Sessions.Session): View { v.(vm := v.vm.(session := s)) }

  /** The board: a positive cell size and `rows` rows of `columns` cells
      each, every cell knowing its own position. */
  predicate BoardOK(v: View)
  {
    && v.cellSize > 0.0 && v.rows > 0
    && |v.cells| == v.rows
    && forall r :: 0 <= r < v.rows ==> Zombies.RowOfCells(v.cells[r], r, v.columns)
  }

  /** InitializeGameField: the board's dimensions are the configured ones. */
  predicate MatchesConfig(cfg: GameConfig, v: View)
  {
    v.rows == cfg.field.rows && v.columns == cfg.field.columns
  }

  /** A zombie as SpawnZombie builds it: on one of the rows, sized for this
      board, its current cell within its row. */
  predicate ZombieFits(v: View, z: Zombie)
  {
    && 0 <= z.row < v.rows && z.columns == v.columns && z.cellSize == v.cellSize
    && Zombies.ZombieWF(z)
  }

  predicate Valid(v: View)
  {
    && BoardOK(v)
    && forall i :: 0 <= i < |Session(v).zombies| ==> ZombieFits(v, Session(v).zombies[i])
  }

  /** A `rnd.Next(0, (int)cellSize / 4)` draw: below the bound, or 0 when
      the bound is 0. */
  predicate ValidOffset(d: int, cellSize: real)
  {
    var bound := cellSize.Floor / 4;
    if bound <= 0 then d == 0 else 0 <= d < bound
  }

  predicate ValidOffsets(offsets: seq<(int, int)>, cellSize: real)
  {
    forall i :: 0 <= i < |offsets| ==> ValidOffset(offsets[i].0, cellSize) && ValidOffset(offsets[i].1, cellSize)
  }

  /** PlantOnBulletSpawnRequested: a bullet of the plant's kind in the
      plant's row, at the left edge of the plant's column. */
  function BulletFor(p: Plant, cellSize: real, id: nat): (b: Bullet)
    ensures b.id == id && b.parentPlantType == p.kind && b.row == PlantRow(p)
    ensures b.x == PlantColumn(p) as real * cellSize
  {
    Bullet(id, p.kind, PlantRow(p), PlantColumn(p) as real * cellSize)
  }

  /** PlantGeneratorOnSunSpawnRequested: a sun at the centre of the plant's
      cell shifted right and down by the two offsets. */
  function SunFor(p: Plant, cellSize: real, id: nat, offset: (int, int)): (s: Sun)
  {
    SunAt(id, PlantColumn(p) as real * cellSize + cellSize / 2.0 + offset.0 as real,
              PlantRow(p) as real * cellSize + cellSize / 2.0 + offset.1 as real)
  }

  /** A generator's sun stays inside the generator's cell, in its
      lower-right quarter. */
  lemma SunLandsInPlantCell(p: Plant, cellSize: real, id: nat, offset: (int, int))
    requires cellSize > 0.0
    requires ValidOffset(offset.0, cellSize) && ValidOffset(offset.1, cellSize)
    ensures var s := SunFor(p, cellSize, id, offset);
      var left := PlantColumn(p) as real * cellSize;
      var top := PlantRow(p) as real * cellSize;
      && left + cellSize / 2.0 <= s.x < left + cellSize
      && top + cellSize / 2.0 <= s.y < top + cellSize
  {
    OffsetBelowHalfCell(offset.0, cellSize);
    OffsetBelowHalfCell(offset.1, cellSize);
  }

  /** A drawn offset is non-negative and less than half a cell. */
  lemma OffsetBelowHalfCell(d: int, cellSize: real)
    requires cellSize > 0.0 && ValidOffset(d, cellSize)
    ensures 0 <= d && d as real * 2.0 < cellSize
  {
    var whole := cellSize.Floor;
    var bound := whole / 4;
    if bound > 0 {
      assert bound * 4 <= whole;
      assert d * 2 < whole;
      assert whole as real <= cellSize;
    }
  }

  /** The handler subscribed to a plant event.  KillRequested removes the
      plant from the collection.  BulletSpawnRequested appends a bullet.
      SunSpawnRequested builds one sun and appends it twice (once before
      and once after its visual is set up). */
  function Dispatch(v: View, e: Plants.PlantEvent, offset: (int, int)): (r: View)
    ensures r.cells == v.cells && r.rows == v.rows && r.columns == v.columns && r.cellSize == v.cellSize
    ensures r.zombieCells == v.zombieCells
    ensures Session(r).zombies == Session(v).zombies
    ensures SameScalars(Session(r), Session(v))
    ensures e.KillRequested? ==>
      && Session(r) == Session(v).(plants := Session(r).plants)
      && Session(r).plants == Collections.RemoveFirst(Session(v).plants, PlantIdOf, e.plant.id)
    ensures e.BulletSpawnRequested? ==>
      && Session(r) == Session(v).(bullets := Session(r).bullets)
      && Session(r).bullets == Session(v).bullets + [BulletFor(e.plant, v.cellSize, v.nextId)]
    ensures e.SunSpawnRequested? ==>
      var sun := SunFor(e.plant, v.cellSize, v.nextId, offset);
      && Session(r) == Session(v).(suns := Session(r).suns)
      && Session(r).suns == Session(v).suns + [sun, sun]
  {
    var s := Session(v);
    match e
    case KillRequested(p) =>
      WithSession(v, s.(plants := Collections.RemoveFirst(s.plants, PlantIdOf, p.id)))
    case BulletSpawnRequested(p) =>
      WithSession(v, s.(bullets := s.bullets + [BulletFor(p, v.cellSize, v.nextId)])).(nextId := v.nextId + 1)
    case SunSpawnRequested(p) =>
      var sun := SunFor(p, v.cellSize, v.nextId, offset);
      WithSession(v, s.(suns := s.suns + [sun]).(suns := s.suns + [sun] + [sun])).(nextId := v.nextId + 1)
  }

  /** The board, the zombies, their visuals and the scalars are untouched,
      and bullets and suns are only appended. */
  predicate HandlersOnly(v: View, r: View)
  {
    && r.cells == v.cells && r.rows == v.rows && r.columns == v.columns && r.cellSize == v.cellSize
    && r.zombieCells == v.zombieCells
    && Session(r).zombies == Session(v).zombies
    && SameScalars(Session(r), Session(v))
    && |Session(v).bullets| <= |Session(r).bullets| && Session(r).bullets[..|Session(v).bullets|] == Session(v).bullets
    && |Session(v).suns| <= |Session(r).suns| && Session(r).suns[..|Session(v).suns|] == Session(v).suns
  }

  /** Two handler-only steps make a handler-only step. */
  lemma HandlersOnlyChains(v: View, v1: View, r: View)
    requires HandlersOnly(v, v1) && HandlersOnly(v1, r)
    ensures HandlersOnly(v, r)
  {
    PrefixOfPrefix(Session(v).bullets, Session(v1).bullets, Session(r).bullets);
    PrefixOfPrefix(Session(v).suns, Session(v1).suns, Session(r).suns);
  }

  /** A prefix of a prefix is a prefix. */
  lemma PrefixOfPrefix<T>(a: seq<T>, b: seq<T>, c: seq<T>)
    requires |a| <= |b| && b[..|a|] == a && |b| <= |c| && c[..|b|] == b
    ensures c[..|a|] == a
  {
    assert c[..|a|] == c[..|b|][..|a|];
  }

  /** Raising several events in order: besides what the handlers append,
      plants can only leave the collection. */
  function DispatchAll(v: View, events: seq<Plants.PlantEvent>, offset: (int, int)): (r: View)
    ensures HandlersOnly(v, r)
    ensures |Session(r).plants| <= |Session(v).plants|
    ensures forall x :: x in Session(r).plants ==> x in Session(v).plants
    ensures (forall i :: 0 <= i < |events| ==> !events[i].KillRequested?) ==> Session(r).plants == Session(v).plants
    ensures (forall i :: 0 <= i < |events| ==> events[i].KillRequested?) ==>
      Session(r).bullets == Session(v).bullets && Session(r).suns == Session(v).suns
    decreases |events|
  {
    if |events| == 0 then v
    else
      var v1 := Dispatch(v, events[0], offset);
      var r := DispatchAll(v1, events[1..], offset);
      HandlersOnlyChains(v, v1, r);
      r
  }

  /** One zombie's `MakeAction`, with the plant-kill handler applied to
      whatever the bite raised. */
  function ZombieActs(v: View, i: nat, fps: real): (r: View)
    requires Valid(v) && i < |Session(v).zombies| && fps > 0.0
    ensures Valid(r)
    ensures |Session(r).zombies| == |Session(v).zombies|
    ensures forall j :: 0 <= j < |Session(v).zombies| && j != i ==> Session(r).zombies[j] == Session(v).zombies[j]
    ensures Zombies.SameBody(Session(r).zombies[i], Session(v).zombies[i])
    ensures SameScalars(Session(r), Session(v))
    ensures Session(r).bullets == Session(v).bullets && Session(r).suns == Session(v).suns
    ensures |Session(r).plants| <= |Session(v).plants|
    ensures r.rows == v.rows && r.columns == v.columns && r.cellSize == v.cellSize && r.zombieCells == v.zombieCells
  {
    var s := Session(v);
    var z := s.zombies[i];
    var st := Zombies.MakeAction(z, v.cells[z.row], s.plants, fps);
    var moved := WithSession(v, s.(zombies := s.zombies[i := st.zombie], plants := st.plants))
                   .(cells := v.cells[z.row := st.rowCells]);
    assert Valid(moved);
    assert forall k :: 0 <= k < |st.events| ==> st.events[k].KillRequested?;
    DispatchAll(moved, st.events, (0, 0))
  }

  /** Every zombie of the snapshot, from position `i` on, acts in order. */
  function ZombiePhase(v: View, fps: real, i: nat): (r: View)
    requires Valid(v) && fps > 0.0 && i <= |Session(v).zombies|
    ensures Valid(r)
    ensures |Session(r).zombies| == |Session(v).zombies|
    ensures forall j :: 0 <= j < |Session(v).zombies| ==> Zombies.SameBody(Session(r).zombies[j], Session(v).zombies[j])
    ensures SameScalars(Session(r), Session(v))
    ensures Session(r).bullets == Session(v).bullets && Session(r).suns == Session(v).suns
    ensures |Session(r).plants| <= |Session(v).plants|
    ensures r.rows == v.rows && r.columns == v.columns && r.cellSize == v.cellSize && r.zombieCells == v.zombieCells
    decreases |Session(v).zombies| - i
  {
    if i == |Session(v).zombies| then v
    else ZombiePhase(ZombieActs(v, i, fps), fps, i + 1)
  }

  /** One plant's `MakeAction` against the current zombies, with its
      handlers applied to what it raised. */
  function PlantActs(v: View, i: nat, now: real, offset: (int, int)): (r: View)
    requires i < |Session(v).plants|
    ensures HandlersOnly(v, r)
    ensures |Session(r).plants| == |Session(v).plants|
    ensures forall j :: 0 <= j < |Session(v).plants| ==> Session(r).plants[j].id == Session(v).plants[j].id
    ensures r.zombieCells == v.zombieCells
  {
    var s := Session(v);
    var a := Plants.MakeAction(s.plants[i], s.zombies, now);
    var acted := WithSession(v, s.(plants := s.plants[i := a.plant]));
    assert forall k :: 0 <= k < |a.events| ==> !a.events[k].KillRequested?;
    DispatchAll(acted, a.events, offset)
  }

  /** Every plant of the snapshot, from position `i` on, acts in order;
      plant `i` draws its sun offsets from `offsets[i]`. */
  function PlantPhase(v: View, now: real, offsets: seq<(int, int)>, i: nat): (r: View)
    requires i <= |Session(v).plants| <= |offsets|
    ensures HandlersOnly(v, r)
    ensures |Session(r).plants| == |Session(v).plants|
    ensures forall j :: 0 <= j < |Session(v).plants| ==> Session(r).plants[j].id == Session(v).plants[j].id
    ensures r.zombieCells == v.zombieCells
    decreases |Session(v).plants| - i
  {
    if i == |Session(v).plants| then v
    else
      var v1 := PlantActs(v, i, now, offsets[i]);
      var r := PlantPhase(v1, now, offsets, i + 1);
      HandlersOnlyChains(v, v1, r);
      r
  }

  /** ActionTimerOnElapsed: all zombies act, then all bullets (whose
      action is not part of this model, so the bullet phase changes
      nothing), then all plants, which therefore see the zombies where the
      zombie phase left them. */
  function ActionTick(cfg: GameConfig, v: View, now: real, offsets: seq<(int, int)>): (r: View)
    requires Valid(v) && cfg.game.fps > 0.0
    requires |Session(v).plants| <= |offsets|
    ensures Valid(r)
    ensures Session(r).zombies == Session(ZombiePhase(v, cfg.game.fps, 0)).zombies
    ensures |Session(r).zombies| == |Session(v).zombies|
    ensures forall j :: 0 <= j < |Session(v).zombies| ==> Zombies.SameBody(Session(r).zombies[j], Session(v).zombies[j])
    ensures |Session(r).plants| <= |Session(v).plants|
    ensures |Session(v).bullets| <= |Session(r).bullets| && Session(r).bullets[..|Session(v).bullets|] == Session(v).bullets
    ensures |Session(v).suns| <= |Session(r).suns| && Session(r).suns[..|Session(v).suns|] == Session(v).suns
    ensures SameScalars(Session(r), Session(v))
  {
    var afterZombies := ZombiePhase(v, cfg.game.fps, 0);
    var afterBullets := afterZombies;
    var r := PlantPhase(afterBullets, now, offsets, 0);
    assert Valid(r);
    r
  }

  /** SpawnZombie: a ZombieBoy or ZombieGirl built for the row's cells is
      added to the collection and given a visual (which the kill handler
      will remove); any other kind throws. */
  function SpawnZombie(cfg: GameConfig, v: View, row: int, kind: ZombieType): (r: Result<View>)
    requires HasZombieEntries(cfg) && Valid(v) && 0 <= row < v.rows
    ensures r.Ok? <==> (kind == ZombieBoy || kind == ZombieGirl)
    ensures r.Throws? ==> r.fault == ArgumentOutOfRange
    ensures r.Ok? ==>
      && Valid(r.value)
      && Session(r.value) == Session(v).(zombies := Session(r.value).zombies)
      && |Session(r.value).zombies| == |Session(v).zombies| + 1
      && Session(r.value).zombies[..|Session(v).zombies|] == Session(v).zombies
      && r.value.zombieCells == v.zombieCells + {v.nextId}
      && r.value.nextId == v.nextId + 1
      && var z := Session(r.value).zombies[|Session(v).zombies|];
         && z.id == v.nextId && z.kind == kind && z.row == row && z.state == Alive
         && z.x == v.cellSize * v.columns as real + 0.5 * v.cellSize
  {
    if kind == ZombieBoy || kind == ZombieGirl then
      var z := Zombies.NewZombie(cfg, v.nextId, kind, v.columns, row, v.cellSize);
      var s := Session(v);
      var r := WithSession(v, s.(zombies := s.zombies + [z]))
                 .(zombieCells := v.zombieCells + {v.nextId}, nextId := v.nextId + 1);
      assert forall i :: 0 <= i < |Session(r).zombies| ==>
        Session(r).zombies[i] == (if i < |s.zombies| then s.zombies[i] else z);
      Ok(r)
    else Throws(ArgumentOutOfRange)
  }

  /** ZombieSpawnTimerOnElapsed with its three draws: `chance` from
      `Next(0, 100)`, `row` from `Next(0, rows)`, `code` from `Next(1, 3)`.
      A zombie is spawned exactly when the chance draw is at most the
      session's difficulty. */
  function SpawnTick(cfg: GameConfig, v: View, chance: int, row: int, code: int): (r: View)
    requires HasZombieEntries(cfg) && Valid(v) && MatchesConfig(cfg, v)
    requires 0 <= chance < 100 && 0 <= row < v.rows && 1 <= code < 3
    ensures Valid(r)
    ensures chance > Session(v).difficulty ==> r == v
    ensures chance <= Session(v).difficulty ==>
      && |Session(r).zombies| == |Session(v).zombies| + 1
      && Session(r).zombies[..|Session(v).zombies|] == Session(v).zombies
      && Session(r).zombies[|Session(v).zombies|].row == row
      && Session(r).zombies[|Session(v).zombies|].kind == (if code == 1 then ZombieBoy else ZombieGirl)
      && Session(r) == Session(v).(zombies := Session(r).zombies)
      && r.zombieCells == v.zombieCells + {v.nextId}
  {
    if chance <= Session(v).difficulty then
      SpawnZombie(cfg, v, row, ZombieTypeOfCode(code)).value
    else v
  }

  /** At difficulty 99 or more every spawn tick spawns; below 0 none does. */
  lemma SpawnChanceFollowsDifficulty(cfg: GameConfig, v: View, chance: int, row: int, code: int)
    requires HasZombieEntries(cfg) && Valid(v) && MatchesConfig(cfg, v)
    requires 0 <= chance < 100 && 0 <= row < v.rows && 1 <= code < 3
    ensures Session(v).difficulty >= 99 ==> |Session(SpawnTick(cfg, v, chance, row, code)).zombies| == |Session(v).zombies| + 1
    ensures Session(v).difficulty < 0 ==> SpawnTick(cfg, v, chance, row, code) == v
  {
  }

  /** BaseZombieOnKillRequested: the zombie leaves the collection and its
      visual is dropped (a missing visual is swallowed by the catch). */
  function ZombieKilled(v: View, z: Zombie): (r: View)
    requires Valid(v)
    ensures Valid(r)
    ensures z.id !in r.zombieCells && r.zombieCells == v.zombieCells - {z.id}
    ensures Session(r) == Session(v).(zombies := Session(r).zombies)
    ensures Session(r).zombies == Collections.RemoveFirst(Session(v).zombies, ZombieIdOf, z.id)
  {
    var s := Session(v);
    WithSession(v, s.(zombies := Collections.RemoveFirst(s.zombies, ZombieIdOf, z.id)))
      .(zombieCells := v.zombieCells - {z.id})
  }

  /** Calling Kill on the zombie at position `i`: the latch decides whether
      the handler runs.  The zombie's state change is written back first. */
  function KillZombieAt(v: View, i: nat): (r: View)
    requires Valid(v) && i < |Session(v).zombies|
    ensures Valid(r)
    ensures Session(v).zombies[i].killRequested ==> Session(r) == Session(v).(zombies := Session(r).zombies)
    ensures !Session(v).zombies[i].killRequested ==>
      && |Session(r).zombies| == |Session(v).zombies| - 1
      && Session(v).zombies[i].id !in r.zombieCells
      && Session(r) == Session(v).(zombies := Session(r).zombies)
      && Session(r).zombies == Collections.RemoveFirst(
           Session(v).zombies[i := Zombies.Kill(Session(v).zombies[i]).zombie], ZombieIdOf, Session(v).zombies[i].id)
  {
    var s := Session(v);
    var k := Zombies.Kill(s.zombies[i]);
    var latched := WithSession(v, s.(zombies := s.zombies[i := k.zombie]));
    assert Session(latched).zombies[i] == k.zombie;
    assert ZombieIdOf(Session(latched).zombies[i]) == k.zombie.id;
    assert Collections.IndexOfId(Session(latched).zombies, ZombieIdOf, k.zombie.id).Some?;
    if k.raised then ZombieKilled(latched, k.zombie) else latched
  }

  /** A second Kill of the same zombie changes nothing more: the handler
      has already run once and the latch holds. */
  lemma SecondKillIsIgnored(v: View, i: nat)
    requires Valid(v) && i < |Session(v).zombies|
    requires Session(v).zombies[i].killRequested
    ensures KillZombieAt(v, i) == v
  {
    var z := Session(v).zombies[i];
    assert Zombies.Kill(z).zombie == z;
    assert Session(v).zombies[i := z] == Session(v).zombies;
  }

  /** `(int)` on a double: truncation toward zero. */
  function Truncate(x: real): (n: int)
    ensures x >= 0.0 ==> n as real <= x < n as real + 1.0
    ensures x < 0.0 ==> n as real - 1.0 < x <= n as real
  {
    if x >= 0.0 then x.Floor else -((-x).Floor)
  }

  /** The cell under a drop point. */
  function DropCell(x: real, y: real, cellSize: real): (rc: (int, int))
    requires cellSize > 0.0
  {
    (Truncate(y / cellSize), Truncate(x / cellSize))
  }

  /** For a point on the field, the cell computed is the one containing it. */
  lemma DropCellContainsPoint(x: real, y: real, cellSize: real)
    requires cellSize > 0.0 && x >= 0.0 && y >= 0.0
    ensures var (row, col) := DropCell(x, y, cellSize);
      && row as real * cellSize <= y < (row + 1) as real * cellSize
      && col as real * cellSize <= x < (col + 1) as real * cellSize
  {
    TruncatedQuotient(y, cellSize);
    TruncatedQuotient(x, cellSize);
  }

  /** For `p >= 0` the truncated quotient `n` places `p` in `[n * cs, (n + 1) * cs)`. */
  lemma TruncatedQuotient(p: real, cellSize: real)
    requires cellSize > 0.0 && p >= 0.0
    ensures var n := Truncate(p / cellSize);
      n as real * cellSize <= p < (n + 1) as real * cellSize
  {
    var q := p / cellSize;
    assert q * cellSize == p;
    SignOfProduct(q, cellSize);
    assert q >= 0.0;
    ScaledCell(p, cellSize, Truncate(q));
  }

  /** Multiplying back by the cell size: `n <= p / cs < n + 1` places `p`
      between `n * cs` and `(n + 1) * cs`. */
  lemma ScaledCell(p: real, cellSize: real, n: int)
    requires cellSize > 0.0 && n as real <= p / cellSize < n as real + 1.0
    ensures n as real * cellSize <= p < (n + 1) as real * cellSize
  {
    var q := p / cellSize;
    var lo, hi := n as real, (n + 1) as real;
    assert q * cellSize == p;
    ScaleLe(lo, q, cellSize);
    ScaleLt(q, hi, cellSize);
    assert p < hi * cellSize;
  }

  /** Multiplying by a positive factor keeps `<=`. */
  lemma ScaleLe(a: real, b: real, c: real)
    requires a <= b && c > 0.0
    ensures a * c <= b * c
  {
    SignOfProduct(b - a, c);
    DifferenceTimes(b, a, c);
  }

  /** Multiplying by a positive factor keeps `<`. */
  lemma ScaleLt(a: real, b: real, c: real)
    requires a < b && c > 0.0
    ensures a * c < b * c
  {
    SignOfProduct(b - a, c);
    DifferenceTimes(b, a, c);
  }

  lemma DifferenceTimes(a: real, b: real, c: real)
    ensures (a - b) * c == a * c - b * c
  {
  }

  /** GameField_Drop: the drop point is mapped to a cell and, when that
      cell is on the board, the view model's placement is asked for. */
  function GameFieldDrop(cfg: GameConfig, v: View, t: PlantType, x: real, y: real): (r: View)
    requires v.cellSize > 0.0 && t in cfg.plants && MatchesConfig(cfg, v)
    ensures var (row, col) := DropCell(x, y, v.cellSize);
      && (!GameService.InField(cfg, row, col) ==> r == v)
      && (GameService.InField(cfg, row, col) ==> r == v.(vm := ViewModel.PlacePlant(cfg, v.vm, t, row, col)))
  {
    var (row, col) := DropCell(x, y, v.cellSize);
    if row >= 0 && row < cfg.field.rows && col >= 0 && col < cfg.field.columns then
      v.(vm := ViewModel.PlacePlant(cfg, v.vm, t, row, col))
    else v
  }

  /** Truncation toward zero maps a drop just left of the board (less than
      one cell out) to column 0, so it is placed there. */
  lemma DropJustLeftOfBoardLandsInColumnZero(x: real, y: real, cellSize: real)
    requires cellSize > 0.0 && -cellSize < x < 0.0
    ensures DropCell(x, y, cellSize).1 == 0
  {
    var q := x / cellSize;
    assert q * cellSize == x;
    assert (q + 1.0) * cellSize == x + cellSize;
    SignOfProduct(q, cellSize);
    SignOfProduct(q + 1.0, cellSize);
    assert -1.0 < q < 0.0;
  }

  /** With a positive factor, a product has the sign of the other factor. */
  lemma SignOfProduct(a: real, b: real)
    requires b > 0.0
    ensures a > 0.0 <==> a * b > 0.0
    ensures a >= 0.0 <==> a * b >= 0.0
  {
  }

  /** ViewModelOnPaused: all three timers stop. */
  function Pause(v: View): (r: View)
    ensures !r.sunTimer && !r.spawnTimer && !r.actionTimer
    ensures r == v.(sunTimer := false, spawnTimer := false, actionTimer := false)
  {
    v.(sunTimer := false, spawnTimer := false, actionTimer := false)
  }

  /** ViewModelOnContinued: all three timers start. */
  function Continue(v: View): (r: View)
    ensures r.sunTimer && r.spawnTimer && r.actionTimer
    ensures r == v.(sunTimer := true, spawnTimer := true, actionTimer := true)
  {
    v.(sunTimer := true, spawnTimer := true, actionTimer := true)
  }

  /** Pausing then continuing changes nothing but the timers, which all
      run again. */
  lemma PauseThenContinue(v: View)
    requires v.sunTimer && v.spawnTimer && v.actionTimer
    ensures Continue(Pause(v)) == v
  {
  }

  /** A live zombie alone on a row without plants walks to the left edge,
      at which point the game-over check puts the score at -1. */
  lemma LoneZombieEndsGame(s: Sessions.Session, z: Zombie, rowCells: seq<FieldCell>, fps: real)
    requires fps > 0.0 && z.cellSize > 0.0 && z.speed > 0.0 && z.state != Dead
    requires Zombies.ZombieWF(z) && Zombies.RowOfCells(rowCells, z.row, z.columns) && Zombies.EmptyRow(rowCells)
    ensures Zombies.Stride(z, fps) > 0.0
    ensures var n := Zombies.TicksToEdge(z.x, Zombies.Stride(z, fps));
      var walked := Zombies.Walk(z, rowCells, s.plants, fps, n).zombie;
      GameService.CheckGameOver(s.(zombies := [walked])).score == -1.0
  {
    Zombies.ReachesLeftEdge(z, rowCells, s.plants, fps);
    var n := Zombies.TicksToEdge(z.x, Zombies.Stride(z, fps));
    var walked := Zombies.Walk(z, rowCells, s.plants, fps, n).zombie;
    assert walked.x <= 0.0;
    var ended := s.(zombies := [walked]);
    assert ended.zombies[0] == walked;
    assert GameService.ZombieAtEdge(ended.zombies);
  }
}

=== FILE: game_view_model.dfy ===
/**
  The game screen's view model (ViewModels/GameViewModel.cs): the frame
  tick with its pause/menu guard and game-over handling, score recording
  at the end of a game, guarded placement, and the menu and selection
  commands.  The frame timer is a running flag, navigation is the `screen`
  field, and the account service's state travels alongside as `Accounts`.
 */
module ViewModel {

  import opened Results
  import opened Config
  import opened Sessions
  import GameService
  import Users
  import Collections

  datatype Screen = InGame | MainMenu

  datatype GameVm = GameVm(
    session: Session,
    isPaused: bool,
    isMenuVisible: bool,
    selectedPlantType: Option<PlantType>,
    notificationMessage: string,
    showNotification: bool,
    timerRunning: bool,
    startTime: real,
    screen: Screen)

  /** The fixed frame delta passed to the service. */
  const FrameDelta: real := 0.016

  const BestScoreMessage: string := "New Best Score!"

  /** The constructor: the clock starts now and the frame timer runs. */
  function NewGameVm(session: Session, now: real): (vm: GameVm)
    ensures vm.session == session && vm.startTime == now && vm.timerRunning
    ensures !vm.isPaused && !vm.isMenuVisible && vm.selectedPlantType.None?
    ensures !vm.showNotification && vm.notificationMessage == [] && vm.screen == InGame
  {
    GameVm(session, false, false, None, "", false, true, now, InGame)
  }

  function ToggleMenu(vm: GameVm): (r: GameVm)
    ensures r.isMenuVisible == !vm.isMenuVisible
    ensures r == vm.(isMenuVisible := r.isMenuVisible)
  {
    vm.(isMenuVisible := !vm.isMenuVisible)
  }

  lemma ToggleMenuTwice(vm: GameVm)
    ensures ToggleMenu(ToggleMenu(vm)) == vm
  {
  }

  function ContinueGame(vm: GameVm): (r: GameVm)
    ensures !r.isMenuVisible
    ensures r == vm.(isMenuVisible := false)
  {
    vm.(isMenuVisible := false)
  }

  /** `SelectPlant`: a null argument leaves the selection alone. */
  function SelectPlant(vm: GameVm, t: Option<PlantType>): (r: GameVm)
    ensures t.None? ==> r == vm
    ensures t.Some? ==> r.selectedPlantType == t && r == vm.(selectedPlantType := t)
  {
    match t
    case None => vm
    case Some(k) => vm.(selectedPlantType := Some(k))
  }

  /** `EndGame`: stops the timer, records a strictly positive score for the
      current user, always clears the saved session, and returns to the
      main menu. */
  function EndGame(vm: GameVm, a: Users.Accounts): (r: (GameVm, Users.Accounts))
    requires Users.Valid(a)
    ensures Users.Valid(r.1)
    ensures r.0 == vm.(timerRunning := false, screen := MainMenu)
    ensures vm.session.score > 0.0 ==> r.1 == Users.ClearGameSession(Users.UpdateUserScore(a, vm.session.score))
    ensures vm.session.score <= 0.0 ==> r.1 == Users.ClearGameSession(a)
  {
    var recorded := if vm.session.score > 0.0 then Users.UpdateUserScore(a, vm.session.score) else a;
    (vm.(timerRunning := false, screen := MainMenu), Users.ClearGameSession(recorded))
  }

  /** The current user has scores and the score beats the best of them. */
  predicate BeatsBest(a: Users.Accounts, score: real)
    requires Users.Valid(a)
  {
    && a.current.Some?
    && |a.users[a.current.value].topScores| > 0
    && forall i :: 0 <= i < |a.users[a.current.value].topScores| ==>
         a.users[a.current.value].topScores[i] < score
  }

  /** `GameTimer_Tick` at wall-clock time `now`.  Paused or with the menu
      open nothing happens.  Otherwise the session is updated with the time
      since the start and the fixed delta; a negative score then ends the
      game, and otherwise a score above the current user's best raises the
      best-score notification.  (Hiding the notification three seconds
      later is not modelled.) */
  function Tick(cfg: GameConfig, vm: GameVm, a: Users.Accounts, now: real): (r: (GameVm, Users.Accounts))
    requires Users.Valid(a)
    ensures Users.Valid(r.1)
    ensures vm.isPaused || vm.isMenuVisible ==> r == (vm, a)
    ensures !(vm.isPaused || vm.isMenuVisible) ==>
      var s := GameService.UpdateGame(cfg, vm.session, now - vm.startTime, FrameDelta, 0.0);
      && r.0.session == s
      && (s.score < 0.0 ==> r == EndGame(vm.(session := s), a))
      && (s.score >= 0.0 ==> r.1 == a && r.0.screen == vm.screen && r.0.timerRunning == vm.timerRunning)
      && (s.score >= 0.0 && BeatsBest(a, s.score) ==>
            r.0 == vm.(session := s, notificationMessage := BestScoreMessage, showNotification := true))
      && (s.score >= 0.0 && !BeatsBest(a, s.score) ==> r.0 == vm.(session := s))
  {
    if vm.isPaused || vm.isMenuVisible then (vm, a)
    else
      var s := GameService.UpdateGame(cfg, vm.session, now - vm.startTime, FrameDelta, 0.0);
      var vm1 := vm.(session := s);
      if s.score < 0.0 then EndGame(vm1.(timerRunning := false), a)
      else if a.current.Some? && |a.users[a.current.value].topScores| > 0
              && s.score > Collections.Max(a.users[a.current.value].topScores) then
        (vm1.(notificationMessage := BestScoreMessage, showNotification := true), a)
      else (vm1, a)
  }

  /** The game-over path never records a score: when a tick ends the game,
      every user keeps their scores and only the saved session is cleared. */
  lemma GameOverRecordsNoScore(cfg: GameConfig, vm: GameVm, a: Users.Accounts, now: real)
    requires Users.Valid(a)
    requires !(vm.isPaused || vm.isMenuVisible)
    requires GameService.UpdateGame(cfg, vm.session, now - vm.startTime, FrameDelta, 0.0).score < 0.0
    ensures var r := Tick(cfg, vm, a, now).1;
      && |r.users| == |a.users|
      && (forall i :: 0 <= i < |a.users| ==> r.users[i].topScores == a.users[i].topScores)
      && r.current.Some? == a.current.Some?
    ensures Tick(cfg, vm, a, now).0.screen == MainMenu && !Tick(cfg, vm, a, now).0.timerRunning
  {
  }

  /** `PlacePlant`: asks the service only when the placement is allowed. */
  function PlacePlant(cfg: GameConfig, vm: GameVm, t: PlantType, row: int, column: int): (r: GameVm)
    requires t in cfg.plants
    ensures !GameService.CanPlacePlant(cfg, vm.session, row, column, t) ==> r == vm
    ensures GameService.CanPlacePlant(cfg, vm.session, row, column, t) ==>
      r == vm.(session := vm.session.(sunBalance := vm.session.sunBalance - GameService.Cost(cfg, t)))
  {
    if GameService.CanPlacePlant(cfg, vm.session, row, column, t) then
      vm.(session := GameService.PlacePlant(cfg, vm.session, row, column, t))
    else vm
  }

  /** The view model's guard repeats the service's own: placing through
      the view model is the same as calling the service directly. */
  lemma GuardIsRedundant(cfg: GameConfig, vm: GameVm, t: PlantType, row: int, column: int)
    requires t in cfg.plants
    ensures PlacePlant(cfg, vm, t, row, column).session == GameService.PlacePlant(cfg, vm.session, row, column, t)
  {
  }

  /** `CanAffordPlant` delegates to the service. */
  function CanAffordPlant(cfg: GameConfig, vm: GameVm, t: PlantType): (b: bool)
    requires t in cfg.plants
    ensures b <==> GameService.Cost(cfg, t) <= vm.session.sunBalance
  {
    GameService.CanAffordPlant(cfg, vm.session, t)
  }

  /** `QuitGame`: stops the timer, saves the session for the current user
      and returns to the main menu. */
  function QuitGame(vm: GameVm, a: Users.Accounts): (r: (GameVm, Users.Accounts))
    requires Users.Valid(a)
    ensures Users.Valid(r.1)
    ensures r.0 == vm.(timerRunning := false, screen := MainMenu)
    ensures r.1 == Users.SaveGameSession(a, vm.session)
  {
    (vm.(timerRunning := false, screen := MainMenu), Users.SaveGameSession(a, vm.session))
  }

  /** Quitting and resuming through the account service gives back the
      game in progress. */
  lemma QuitThenResume(vm: GameVm, a: Users.Accounts)
    requires Users.Valid(a) && a.current.Some?
    ensures var resumed := Users.LoadGameSession(QuitGame(vm, a).1).1;
      resumed.Some? && SameLive(resumed.value, vm.session) && SameScalars(resumed.value, vm.session)
  {
    Users.SaveThenLoad(a, vm.session);
  }
}

=== FILE: graphics_provider.dfy ===
/**
  The board's checkerboard colouring (GetLocationCellColor in
  Helpers/GraphicsProvider.cs): a shade index from the parities of row and
  column, using C#'s remainder, which truncates toward zero and so can be
  negative.
 */
module Graphics {

  import opened Results
  import opened Config

  datatype Rgb = Rgb(r: int, g: int, b: int)

  /** C#'s `a % b` for a positive divisor: the remainder of division
      truncated toward zero, which takes the sign of `a`. */
  function CsRem(a: int, b: int): (r: int)
    requires b > 0
    ensures a >= 0 ==> r == a % b
    ensures a < 0 ==> -b < r <= 0 && r == -((-a) % b)
  {
    if a >= 0 then a % b else -((-a) % b)
  }

  /** Modulo 2 the truncated remainder is zero exactly for even numbers,
      and otherwise 1 or -1 by the sign. */
  lemma CsRemTwo(a: int)
    ensures CsRem(a, 2) == 0 <==> a % 2 == 0
    ensures a >= 0 && a % 2 == 1 ==> CsRem(a, 2) == 1
    ensures a < 0 && a % 2 == 1 ==> CsRem(a, 2) == -1
  {
    if a < 0 {
      assert (-a) % 2 == 0 <==> a % 2 == 0;
    }
  }

  /** `row % 2 + column % 2`. */
  function ShadeIndex(row: int, column: int): int
  {
    CsRem(row, 2) + CsRem(column, 2)
  }

  /** The three shades of each location, lightest first. */
  function Shade(location: LocationType, index: int): (c: Option<Rgb>)
  {
    match location
    case SandBeach =>
      if index == 0 then Some(Rgb(244, 217, 164))
      else if index == 1 then Some(Rgb(231, 203, 151))
      else if index == 2 then Some(Rgb(221, 192, 141))
      else None
    case GrassLawn =>
      if index == 0 then Some(Rgb(114, 190, 107))
      else if index == 1 then Some(Rgb(108, 183, 101))
      else if index == 2 then Some(Rgb(103, 178, 96))
      else None
    case UnnamedLocation(_) => None
  }

  /** GetLocationCellColor: an unknown location, or a shade index outside
      0..2, throws. */
  function GetLocationCellColor(location: LocationType, row: int, column: int): (r: Result<Rgb>)
    ensures location.UnnamedLocation? ==> r == Throws(ArgumentOutOfRange)
    ensures !location.UnnamedLocation? ==> (r.Ok? <==> 0 <= ShadeIndex(row, column) <= 2)
    ensures r.Throws? ==> r.fault == ArgumentOutOfRange
  {
    match Shade(location, ShadeIndex(row, column))
    case Some(c) => Ok(c)
    case None => Throws(ArgumentOutOfRange)
  }

  /** On the board (non-negative row and column) the index is the sum of
      the two parities, so the throwing arms are never reached. */
  lemma BoardCellsHaveAColour(location: LocationType, row: int, column: int)
    requires !location.UnnamedLocation? && row >= 0 && column >= 0
    ensures ShadeIndex(row, column) == row % 2 + column % 2
    ensures GetLocationCellColor(location, row, column).Ok?
  {
  }

  /** On the board the colour depends only on the parities. */
  lemma ColourDependsOnParity(location: LocationType, row: int, column: int, row2: int, column2: int)
    requires row >= 0 && column >= 0 && row2 >= 0 && column2 >= 0
    requires row % 2 == row2 % 2 && column % 2 == column2 % 2
    ensures GetLocationCellColor(location, row, column) == GetLocationCellColor(location, row2, column2)
  {
  }

  /** Off the board the truncating remainder goes negative: the cell throws
      exactly when the index sum is negative, which a negative row with an
      odd positive column escapes. */
  lemma NegativeCoordinates(location: LocationType)
    requires !location.UnnamedLocation?
    ensures GetLocationCellColor(location, -1, 0).Throws?
    ensures GetLocationCellColor(location, -1, -1).Throws?
    ensures ShadeIndex(-1, -1) == -2
    ensures GetLocationCellColor(location, -1, 1).Ok?
  {
  }

  /** Neighbouring cells, across a row or a column, never share a colour,
      on or off the board. */
  lemma NeighboursDiffer(location: LocationType, row: int, column: int)
    ensures ShadeIndex(row, column) != ShadeIndex(row + 1, column)
    ensures ShadeIndex(row, column) != ShadeIndex(row, column + 1)
    ensures GetLocationCellColor(location, row, column).Ok? && GetLocationCellColor(location, row + 1, column).Ok? ==>
      GetLocationCellColor(location, row, column).value != GetLocationCellColor(location, row + 1, column).value
    ensures GetLocationCellColor(location, row, column).Ok? && GetLocationCellColor(location, row, column + 1).Ok? ==>
      GetLocationCellColor(location, row, column).value != GetLocationCellColor(location, row, column + 1).value
  {
    ParityFlips(row);
    ParityFlips(column);
  }

  /** Stepping by one changes the truncated remainder modulo 2. */
  lemma ParityFlips(a: int)
    ensures CsRem(a, 2) != CsRem(a + 1, 2)
  {
    CsRemTwo(a);
    CsRemTwo(a + 1);
  }
}

=== FILE: health_bar.dfy ===
/**
  The two converters behind the health bar (VisualControls/HealthBar.xaml.cs):
  the filled width and the fill colour.  WPF hands the converters an array
  of boxed values; here each value is either a double or something else.
 */
module HealthBar {

  /** A value from the binding: a boxed double or any other object. */
  datatype Boxed = BoxedDouble(d: real) | BoxedOther

  function MaxReal(a: real, b: real): real { if a >= b then a else b }

  function MinReal(a: real, b: real): real { if a <= b then a else b }

  /** `Math.Max(0, Math.Min(1, x))`. */
  function Clamp01(x: real): (c: real)
    ensures 0.0 <= c <= 1.0
    ensures 0.0 <= x <= 1.0 ==> c == x
    ensures x < 0.0 ==> c == 0.0
    ensures x > 1.0 ==> c == 1.0
  {
    MaxReal(0.0, MinReal(1.0, x))
  }

  /** The three expected inputs: health, maximum health, bar width. */
  predicate WidthInputs(values: seq<Boxed>)
  {
    |values| == 3 && values[0].BoxedDouble? && values[1].BoxedDouble? && values[2].BoxedDouble?
  }

  /** HealthToPercentageConverter.Convert: the health fraction, clamped to
      [0, 1], of the width inside a one-pixel border; 0 for anything
      unexpected or a non-positive maximum. */
  function FilledWidth(values: seq<Boxed>): (w: real)
    ensures w >= 0.0
    ensures !(WidthInputs(values) && values[1].d > 0.0) ==> w == 0.0
    ensures WidthInputs(values) ==> w <= MaxReal(0.0, values[2].d - 2.0)
  {
    if !WidthInputs(values) then 0.0
    else
      var health := values[0].d;
      var maxHealth := values[1].d;
      var width := values[2].d;
      if maxHealth <= 0.0 then 0.0
      else
        var percentage := Clamp01(health / maxHealth);
        var fillable := width - 2.0;
        assert fillable * percentage <= MaxReal(0.0, fillable) by {
          if fillable >= 0.0 {
            assert fillable * (1.0 - percentage) >= 0.0;
          } else {
            assert fillable * percentage <= 0.0;
          }
        }
        MaxReal(0.0, fillable * percentage)
  }

  /** More health never gives a shorter bar. */
  lemma FilledWidthMonotone(h1: real, h2: real, maxHealth: real, width: real)
    requires h1 <= h2
    ensures FilledWidth([BoxedDouble(h1), BoxedDouble(maxHealth), BoxedDouble(width)])
         <= FilledWidth([BoxedDouble(h2), BoxedDouble(maxHealth), BoxedDouble(width)])
  {
    if maxHealth > 0.0 {
      QuotientMonotone(h1, h2, maxHealth);
      var p1 := Clamp01(h1 / maxHealth);
      var p2 := Clamp01(h2 / maxHealth);
      assert p1 <= p2;
      var fillable := width - 2.0;
      if fillable >= 0.0 {
        assert fillable * (p2 - p1) >= 0.0;
      } else {
        assert fillable * p1 <= 0.0;
      }
    }
  }

  lemma QuotientMonotone(a: real, b: real, m: real)
    requires a <= b && m > 0.0
    ensures a / m <= b / m
  {
    assert (b - a) / m >= 0.0;
  }

  /** A full-health bar fills the whole inner width. */
  lemma FullHealthFillsBar(maxHealth: real, width: real)
    requires maxHealth > 0.0 && width >= 2.0
    ensures FilledWidth([BoxedDouble(maxHealth), BoxedDouble(maxHealth), BoxedDouble(width)]) == width - 2.0
  {
  }

  /** The colour bands, each interpolating by a factor in [0, 1] (the byte
      rounding of the interpolated channels is not modelled). */
  datatype HealthColor =
    | Gray
    | Emerald                       // RGB (46, 204, 113)
    | YellowOrange(factor: real)    // (241, 196, 15) at 1 to (255, 152, 0) at 0
    | Red(factor: real)             // (231, 76, 60) at 1 to (192, 57, 43) at 0

  /** GetHealthColor on a clamped fraction. */
  function GetHealthColor(percentage: real): (c: HealthColor)
    requires 0.0 <= percentage <= 1.0
    ensures percentage > 0.6 <==> c.Emerald?
    ensures 0.3 < percentage <= 0.6 <==> c.YellowOrange?
    ensures percentage <= 0.3 <==> c.Red?
    ensures c.YellowOrange? ==> 0.0 < c.factor <= 1.0
    ensures c.Red? ==> 0.0 <= c.factor <= 1.0
  {
    if percentage > 0.6 then Emerald
    else if percentage > 0.3 then YellowOrange((percentage - 0.3) / 0.3)
    else Red(MaxReal(0.0, percentage / 0.3))
  }

  predicate ColorInputs(values: seq<Boxed>)
  {
    |values| == 2 && values[0].BoxedDouble? && values[1].BoxedDouble?
  }

  /** HealthToColorConverter.Convert: Gray for anything unexpected or a
      non-positive maximum; otherwise the band of the clamped fraction. */
  function HealthColorOf(values: seq<Boxed>): (c: HealthColor)
    ensures c.Gray? <==> !(ColorInputs(values) && values[1].d > 0.0)
    ensures ColorInputs(values) && values[1].d > 0.0 ==>
      var ratio := Clamp01(values[0].d / values[1].d);
      && (c.Emerald? <==> ratio > 0.6)
      && (c.YellowOrange? <==> 0.3 < ratio <= 0.6)
      && (c.Red? <==> ratio <= 0.3)
  {
    if !ColorInputs(values) then Gray
    else
      var health := values[0].d;
      var maxHealth := values[1].d;
      if maxHealth <= 0.0 then Gray
      else GetHealthColor(Clamp01(health / maxHealth))
  }

  /** Band order, from red to green. */
  function Band(c: HealthColor): int
  {
    match c
    case Gray => -1
    case Red(_) => 0
    case YellowOrange(_) => 1
    case Emerald => 2
  }

  /** More health never moves the bar to a lower band. */
  lemma ColorBandMonotone(h1: real, h2: real, maxHealth: real)
    requires h1 <= h2 && maxHealth > 0.0
    ensures Band(HealthColorOf([BoxedDouble(h1), BoxedDouble(maxHealth)]))
         <= Band(HealthColorOf([BoxedDouble(h2), BoxedDouble(maxHealth)]))
  {
    QuotientMonotone(h1, h2, maxHealth);
  }
}

=== FILE: location_carousel.dfy ===
/**
  The location picker (VisualControls/LocationCarousel.xaml.cs): the list
  of locations, the selected one, arrow navigation, arrow-button
  enablement, the load-time fix-up and the scroll offset.  Rendering and
  the scroll viewer itself are not modelled; its viewport width is a
  parameter.
 */
module Carousel {

  import opened Results
  import opened Config

  datatype Carousel = Carousel(locations: seq<LocationType>, selected: LocationType)

  /** `List.IndexOf`: the first position holding `x`, or -1. */
  function IndexOf(s: seq<LocationType>, x: LocationType): (i: int)
    ensures -1 <= i < |s|
    ensures i == -1 <==> x !in s
    ensures i >= 0 ==> s[i] == x && forall j :: 0 <= j < i ==> s[j] != x
  {
    if |s| == 0 then -1
    else if s[0] == x then 0
    else
      var k := IndexOf(s[1..], x);
      if k == -1 then -1 else k + 1
  }

  function Index(c: Carousel): int { IndexOf(c.locations, c.selected) }

  /** NavigateLeft: the previous location when there is one. */
  function NavigateLeft(c: Carousel): (r: Carousel)
    ensures r.locations == c.locations
    ensures Index(c) > 0 ==> r.selected == c.locations[Index(c) - 1]
    ensures Index(c) <= 0 ==> r == c
  {
    var i := IndexOf(c.locations, c.selected);
    if i > 0 then c.(selected := c.locations[i - 1]) else c
  }

  /** NavigateRight: the next location when the index is before the last
      one.  A selection missing from the list has index -1, so it moves to
      the first location. */
  function NavigateRight(c: Carousel): (r: Carousel)
    ensures r.locations == c.locations
    ensures Index(c) < |c.locations| - 1 ==> r.selected == c.locations[Index(c) + 1]
    ensures Index(c) >= |c.locations| - 1 ==> r == c
    ensures c.selected !in c.locations && |c.locations| > 0 ==> r.selected == c.locations[0]
  {
    var i := IndexOf(c.locations, c.selected);
    if i < |c.locations| - 1 then c.(selected := c.locations[i + 1]) else c
  }

  /** UpdateNavigationButtons: (left enabled, right enabled). */
  function Buttons(c: Carousel): (b: (bool, bool))
    ensures b.0 <==> Index(c) > 0
    ensures b.1 <==> Index(c) < |c.locations| - 1
  {
    var i := IndexOf(c.locations, c.selected);
    (i > 0, i < |c.locations| - 1)
  }

  predicate Distinct(s: seq<LocationType>)
  {
    forall i, j :: 0 <= i < j < |s| ==> s[i] != s[j]
  }

  /** Without repeated locations an arrow is enabled exactly when pressing
      it changes the selection. */
  lemma ButtonsMatchNavigation(c: Carousel)
    requires Distinct(c.locations)
    ensures Buttons(c).0 <==> NavigateLeft(c).selected != c.selected
    ensures c.selected in c.locations ==> (Buttons(c).1 <==> NavigateRight(c).selected != c.selected)
  {
  }

  /** A selection in the list stays in the list under either arrow. */
  lemma NavigationStaysInList(c: Carousel)
    requires c.selected in c.locations
    ensures NavigateLeft(c).selected in c.locations
    ensures NavigateRight(c).selected in c.locations
  {
  }

  /** Without repeated locations, right undoes left and left undoes right. */
  lemma LeftRightRoundTrip(c: Carousel)
    requires Distinct(c.locations)
    ensures Index(c) > 0 ==> NavigateRight(NavigateLeft(c)) == c
    ensures 0 <= Index(c) < |c.locations| - 1 ==> NavigateLeft(NavigateRight(c)) == c
  {
    var i := Index(c);
    if i > 0 {
      var l := NavigateLeft(c);
      assert l.selected == c.locations[i - 1];
      assert Index(l) == i - 1 by { DistinctIndex(c.locations, i - 1); }
      assert NavigateRight(l).selected == c.locations[i] == c.selected;
    }
    if 0 <= i < |c.locations| - 1 {
      var r := NavigateRight(c);
      assert r.selected == c.locations[i + 1];
      assert Index(r) == i + 1 by { DistinctIndex(c.locations, i + 1); }
      assert NavigateLeft(r).selected == c.locations[i] == c.selected;
    }
  }

  /** In a list without repeats, position `k` is where its element is found. */
  lemma DistinctIndex(s: seq<LocationType>, k: nat)
    requires Distinct(s) && k < |s|
    ensures IndexOf(s, s[k]) == k
  {
  }

  /** LocationCarousel_Loaded: a non-empty list that lacks the selection
      resets it to the first location. */
  function Loaded(c: Carousel): (r: Carousel)
    ensures r.locations == c.locations
    ensures |c.locations| > 0 ==> r.selected in r.locations
    ensures c.selected in c.locations || |c.locations| == 0 ==> r == c
  {
    if |c.locations| > 0 && c.selected !in c.locations then c.(selected := c.locations[0]) else c
  }

  /** The width of one location card, margin included. */
  const ItemWidth: real := 400.0

  /** ScrollToSelectedLocation: nothing for a missing selection; otherwise
      the card is centred in the viewport, never scrolling before the
      start. */
  function ScrollOffset(c: Carousel, viewportWidth: real): (r: Option<real>)
    ensures r.None? <==> c.selected !in c.locations
    ensures r.Some? ==> r.value >= 0.0
    ensures r.Some? ==> r.value >= Index(c) as real * ItemWidth - viewportWidth / 2.0 + ItemWidth / 2.0
    ensures r.Some? ==> r.value == 0.0 || r.value == Index(c) as real * ItemWidth - viewportWidth / 2.0 + ItemWidth / 2.0
  {
    var i := IndexOf(c.locations, c.selected);
    if i < 0 then None
    else
      var position := i as real * ItemWidth - viewportWidth / 2.0 + ItemWidth / 2.0;
      Some(if position > 0.0 then position else 0.0)
  }

  /** Whatever the viewport width, a card further right never scrolls less. */
  lemma ScrollFollowsSelection(a: Carousel, b: Carousel, viewportWidth: real)
    requires a.locations == b.locations && a.selected in a.locations && b.selected in b.locations
    requires Index(a) <= Index(b)
    ensures ScrollOffset(a, viewportWidth).value <= ScrollOffset(b, viewportWidth).value
  {
  }
}

=== FILE: plants.dfy ===
/**
  Plant behaviour: BasePlant (kill and bullet requests), the four plant
  constructors, and the per-tick actions of PlantShooter1 and
  PlantGenerator.  `DateTime.Now` is the parameter `now`, in seconds since
  `DateTime.MinValue`.
 */
module Plants {

  import opened Results
  import opened Config
  import opened Entities

  /** `DateTime.MinValue` on the model's time line. */
  const MinTime: real := 0.0

  /** The notifications a plant raises, each carrying the raising plant. */
  datatype PlantEvent =
    | BulletSpawnRequested(plant: Plant)
    | SunSpawnRequested(plant: Plant)
    | KillRequested(plant: Plant)

  /** A plant after a call, with the events the call raised in order. */
  datatype Acted = Acted(plant: Plant, events: seq<PlantEvent>)

  /** BasePlant.Kill: raises KillRequested and keeps no latch. */
  function Kill(p: Plant): (r: Acted)
    ensures r.plant == p
    ensures r.events == [KillRequested(p)]
  {
    Acted(p, [KillRequested(p)])
  }

  /** `n` successive Kill calls on the same plant. */
  function KillRepeatedly(p: Plant, n: nat): (r: Acted)
  {
    if n == 0 then Acted(p, [])
    else
      var first := Kill(p);
      var rest := KillRepeatedly(first.plant, n - 1);
      Acted(rest.plant, first.events + rest.events)
  }

  /** Every call raises the event again: `n` calls raise it `n` times. */
  lemma {:induction false} KillIsNotLatched(p: Plant, n: nat)
    ensures KillRepeatedly(p, n).plant == p
    ensures |KillRepeatedly(p, n).events| == n
    ensures forall i :: 0 <= i < n ==> KillRepeatedly(p, n).events[i] == KillRequested(p)
  {
    if n > 0 {
      KillIsNotLatched(p, n - 1);
    }
  }

  /** BasePlant.SpawnBullet: raises BulletSpawnRequested and changes nothing. */
  function SpawnBullet(p: Plant): (r: Acted)
    ensures r.plant == p
    ensures r.events == [BulletSpawnRequested(p)]
  {
    Acted(p, [BulletSpawnRequested(p)])
  }

  /** The PlantShooter1 constructor (with the cell the caller attaches).
      Health comes from the Shooter1 entry; the shot delay from Shooter2's. */
  function NewShooter1(cfg: GameConfig, id: nat, cell: Option<CellRef>): (p: Plant)
    requires HasPlantEntries(cfg)
    ensures p.kind == Shooter1 && p.state == Idle && p.fieldCell == cell
    ensures p.health == p.maxHealth == cfg.plants[Shooter1].health as real
    ensures p.routine == Shooting(cfg.plants[Shooter2].shootDelay.value, MinTime)
  {
    var health := cfg.plants[Shooter1].health as real;
    Plant(id, Shooter1, health, health, Idle, cell,
          Shooting(cfg.plants[Shooter2].shootDelay.value, MinTime))
  }

  /** The PlantShooter2 constructor: it keeps no timer. */
  function NewShooter2(cfg: GameConfig, id: nat, cell: Option<CellRef>): (p: Plant)
    requires HasPlantEntries(cfg)
    ensures p.kind == Shooter2 && p.state == Idle && p.fieldCell == cell
    ensures p.health == p.maxHealth == cfg.plants[Shooter2].health as real
    ensures p.routine == NoRoutine
  {
    var health := cfg.plants[Shooter2].health as real;
    Plant(id, Shooter2, health, health, Idle, cell, NoRoutine)
  }

  /** The PlantShield constructor: it keeps no timer. */
  function NewShield(cfg: GameConfig, id: nat, cell: Option<CellRef>): (p: Plant)
    requires HasPlantEntries(cfg)
    ensures p.kind == Shield && p.state == Idle && p.fieldCell == cell
    ensures p.health == p.maxHealth == cfg.plants[Shield].health as real
    ensures p.routine == NoRoutine
  {
    var health := cfg.plants[Shield].health as real;
    Plant(id, Shield, health, health, Idle, cell, NoRoutine)
  }

  /** The PlantGenerator constructor: the emission interval is the global
      sun-fall interval and the timer starts at construction time `now`. */
  function NewGenerator(cfg: GameConfig, id: nat, cell: Option<CellRef>, now: real): (p: Plant)
    requires HasPlantEntries(cfg)
    ensures p.kind == Generator && p.state == Idle && p.fieldCell == cell
    ensures p.health == p.maxHealth == cfg.plants[Generator].health as real
    ensures p.routine == Generating(cfg.game.sunFallInterval, now)
  {
    var health := cfg.plants[Generator].health as real;
    Plant(id, Generator, health, health, Idle, cell, Generating(cfg.game.sunFallInterval, now))
  }

  /** The Shooter1 constructor reads no field of its own config entry but
      Health: changing Shooter1's shot delay changes nothing. */
  lemma Shooter1IgnoresOwnShootDelay(cfg: GameConfig, d: Option<real>, id: nat, cell: Option<CellRef>)
    requires HasPlantEntries(cfg)
    ensures var cfg' := cfg.(plants := cfg.plants[Shooter1 := cfg.plants[Shooter1].(shootDelay := d)]);
      HasPlantEntries(cfg') && NewShooter1(cfg', id, cell) == NewShooter1(cfg, id, cell)
  {
  }

  /** A zombie the shooter may fire at: on the plant's row, and in a column
      at or right of the plant's (a zombie with no cell counts as column 0). */
  predicate Qualifies(p: Plant, z: Zombie)
  {
    ZombieColumn(z) >= PlantColumn(p) && z.row == PlantRow(p)
  }

  /** The delay and the last firing time of a plant's timer. */
  function Delay(r: Routine): real
  {
    match r
    case Shooting(d, _) => d
    case Generating(d, _) => d
    case NoRoutine => 0.0
  }

  function LastFired(r: Routine): real
  {
    match r
    case Shooting(_, t) => t
    case Generating(_, t) => t
    case NoRoutine => MinTime
  }

  /** The timer gate both subclasses use: `now - last >= delay`. */
  predicate TimerDue(r: Routine, now: real)
  {
    !r.NoRoutine? && now - LastFired(r) >= Delay(r)
  }

  /** The routine with its last firing time set to `now`. */
  function Restart(r: Routine, now: real): Routine
  {
    match r
    case Shooting(d, _) => Shooting(d, now)
    case Generating(d, _) => Generating(d, now)
    case NoRoutine => NoRoutine
  }

  /** PlantShooter1.MakeAction. */
  function ShooterAction(p: Plant, zombies: seq<Zombie>, now: real): Acted
    requires p.routine.Shooting?
  {
    var target := exists i :: 0 <= i < |zombies| && Qualifies(p, zombies[i]);
    if target && now - p.routine.lastShootTime >= p.routine.shootDelay then
      var shot := SpawnBullet(p);
      Acted(shot.plant.(routine := Shooting(p.routine.shootDelay, now)), shot.events)
    else Acted(p, [])
  }

  /** PlantGenerator.MakeAction; the zombies are not consulted. */
  function GeneratorAction(p: Plant, now: real): Acted
    requires p.routine.Generating?
  {
    if now - p.routine.lastSpawnTime >= p.routine.spawnSunDelay then
      Acted(p.(routine := Generating(p.routine.spawnSunDelay, now)), [SunSpawnRequested(p)])
    else Acted(p, [])
  }

  /** BasePlant.MakeAction dispatched on the subclass.  PlantShooter2 and
      PlantShield do not override it and do nothing. */
  function MakeAction(p: Plant, zombies: seq<Zombie>, now: real): (r: Acted)
    ensures r.plant == p.(routine := r.plant.routine)
    ensures |r.events| <= 1
    ensures p.routine.NoRoutine? ==> r == Acted(p, [])
    ensures p.routine.Shooting? ==>
      (|r.events| == 1 <==>
         (exists i :: 0 <= i < |zombies| && Qualifies(p, zombies[i])) && TimerDue(p.routine, now))
    ensures p.routine.Generating? ==> (|r.events| == 1 <==> TimerDue(p.routine, now))
    ensures |r.events| == 1 ==>
      && r.plant.routine == Restart(p.routine, now)
      && r.events[0] == (if p.routine.Shooting? then BulletSpawnRequested(p) else SunSpawnRequested(p))
    ensures |r.events| == 0 ==> r.plant == p
  {
    match p.routine
    case Shooting(_, _) => ShooterAction(p, zombies, now)
    case Generating(_, _) => GeneratorAction(p, now)
    case NoRoutine => Acted(p, [])
  }

  /** Which zombies are on the field does not affect a generator. */
  lemma GeneratorIgnoresZombies(p: Plant, a: seq<Zombie>, b: seq<Zombie>, now: real)
    requires p.routine.Generating?
    ensures MakeAction(p, a, now) == MakeAction(p, b, now)
  {
  }

  /** A fresh Shooter1 fires on the first tick that has a qualifying zombie,
      whenever its delay is no longer than the time since `DateTime.MinValue`. */
  lemma FirstTickWithTargetShoots(cfg: GameConfig, id: nat, cell: Option<CellRef>, zombies: seq<Zombie>, now: real)
    requires HasPlantEntries(cfg)
    requires cfg.plants[Shooter2].shootDelay.value <= now - MinTime
    requires exists i :: 0 <= i < |zombies| && Qualifies(NewShooter1(cfg, id, cell), zombies[i])
    ensures MakeAction(NewShooter1(cfg, id, cell), zombies, now).events
            == [BulletSpawnRequested(NewShooter1(cfg, id, cell))]
  {
  }

  /** One tick as a plant sees it: the zombie collection and the clock. */
  datatype Tick = Tick(zombies: seq<Zombie>, now: real)

  /** A plant acting on successive ticks; also returns the clock reading of
      every tick on which it raised an event. */
  function Run(p: Plant, ticks: seq<Tick>): (r: (Plant, seq<real>))
    decreases |ticks|
  {
    if |ticks| == 0 then (p, [])
    else
      var a := MakeAction(p, ticks[0].zombies, ticks[0].now);
      var rest := Run(a.plant, ticks[1..]);
      (rest.0, (if |a.events| == 1 then [ticks[0].now] else []) + rest.1)
  }

  /** Firings of a timed plant are at least one delay apart, and the first
      is at least one delay after the timer's starting value. */
  predicate SpacedFrom(start: real, delay: real, fired: seq<real>)
  {
    && (|fired| > 0 ==> fired[0] - start >= delay)
    && (forall i :: 0 < i < |fired| ==> fired[i] - fired[i - 1] >= delay)
  }

  lemma {:induction false} FiringsAreSpaced(p: Plant, ticks: seq<Tick>)
    requires !p.routine.NoRoutine?
    ensures SpacedFrom(LastFired(p.routine), Delay(p.routine), Run(p, ticks).1)
    ensures Delay(Run(p, ticks).0.routine) == Delay(p.routine)
    ensures !Run(p, ticks).0.routine.NoRoutine?
    ensures LastFired(Run(p, ticks).0.routine)
            == if |Run(p, ticks).1| > 0 then Run(p, ticks).1[|Run(p, ticks).1| - 1] else LastFired(p.routine)
    decreases |ticks|
  {
    if |ticks| > 0 {
      var a := MakeAction(p, ticks[0].zombies, ticks[0].now);
      FiringsAreSpaced(a.plant, ticks[1..]);
      var rest := Run(a.plant, ticks[1..]);
      if |a.events| == 1 {
        assert Run(p, ticks).1 == [ticks[0].now] + rest.1;
      } else {
        assert Run(p, ticks).1 == rest.1;
      }
    }
  }

  /** Every firing happens at some tick's clock reading. */
  lemma {:induction false} FiringsAreTickTimes(p: Plant, ticks: seq<Tick>)
    ensures forall i :: 0 <= i < |Run(p, ticks).1| ==>
      exists j :: 0 <= j < |ticks| && Run(p, ticks).1[i] == ticks[j].now
    decreases |ticks|
  {
    if |ticks| > 0 {
      var a := MakeAction(p, ticks[0].zombies, ticks[0].now);
      FiringsAreTickTimes(a.plant, ticks[1..]);
      var rest := Run(a.plant, ticks[1..]).1;
      var fired := Run(p, ticks).1;
      var head := if |a.events| == 1 then [ticks[0].now] else [];
      assert fired == head + rest;
      forall i | 0 <= i < |fired|
        ensures exists j :: 0 <= j < |ticks| && fired[i] == ticks[j].now
      {
        if i < |head| {
          assert fired[i] == ticks[0].now;
        } else {
          var k :| 0 <= k < |ticks[1..]| && rest[i - |head|] == ticks[1..][k].now;
          assert fired[i] == ticks[k + 1].now;
        }
      }
      assert forall i :: 0 <= i < |fired| ==> exists j :: 0 <= j < |ticks| && fired[i] == ticks[j].now;
    } else {
      assert Run(p, ticks).1 == [];
    }
  }

  /** Spaced firings: the k-th is at least (k+1) delays after the start. */
  lemma {:induction false} SpacedAccumulates(start: real, delay: real, fired: seq<real>, k: nat)
    requires SpacedFrom(start, delay, fired)
    requires k < |fired|
    ensures fired[k] - start >= (k + 1) as real * delay
  {
    if k > 0 {
      SpacedAccumulates(start, delay, fired, k - 1);
    }
  }

  /** Up to clock reading `horizon`, a generator built at time `t0` emits at
      most (horizon - t0) / interval suns, whatever the tick rate. */
  lemma EmissionsBounded(p: Plant, ticks: seq<Tick>, horizon: real)
    requires p.routine.Generating?
    requires p.routine.lastSpawnTime <= horizon
    requires forall j :: 0 <= j < |ticks| ==> ticks[j].now <= horizon
    ensures |Run(p, ticks).1| as real * p.routine.spawnSunDelay <= horizon - p.routine.lastSpawnTime
  {
    FiringsAreSpaced(p, ticks);
    FiringsBefore(p, ticks, horizon);
    SpacedWithinHorizon(Run(p, ticks).1, p.routine.lastSpawnTime, p.routine.spawnSunDelay, horizon);
  }

  /** Spaced firings that all happen by `horizon` number at most the delays
      that fit between the start and the horizon. */
  lemma SpacedWithinHorizon(fired: seq<real>, start: real, delay: real, horizon: real)
    requires SpacedFrom(start, delay, fired) && start <= horizon
    requires forall i :: 0 <= i < |fired| ==> fired[i] <= horizon
    ensures |fired| as real * delay <= horizon - start
  {
    if |fired| > 0 {
      var k := |fired| - 1;
      SpacedAccumulates(start, delay, fired, k);
      CountBound(fired[k], start, delay, k + 1, horizon);
    }
  }

  /** With every tick at or before `horizon`, so is every firing. */
  lemma FiringsBefore(p: Plant, ticks: seq<Tick>, horizon: real)
    requires forall j :: 0 <= j < |ticks| ==> ticks[j].now <= horizon
    ensures forall i :: 0 <= i < |Run(p, ticks).1| ==> Run(p, ticks).1[i] <= horizon
  {
    FiringsAreTickTimes(p, ticks);
  }

  /** The last firing, at least `count` delays after the start and no later
      than the horizon, bounds `count` delays by the time available. */
  lemma CountBound(last: real, start: real, delay: real, count: nat, horizon: real)
    requires last - start >= count as real * delay && last <= horizon
    ensures count as real * delay <= horizon - start
  {
  }

  /** A new generator emits nothing before one full interval has passed. */
  lemma NoEmissionBeforeFirstInterval(cfg: GameConfig, id: nat, cell: Option<CellRef>, built: real, ticks: seq<Tick>)
    requires HasPlantEntries(cfg)
    requires forall j :: 0 <= j < |ticks| ==> ticks[j].now - built < cfg.game.sunFallInterval
    ensures Run(NewGenerator(cfg, id, cell, built), ticks).1 == []
  {
    var p := NewGenerator(cfg, id, cell, built);
    FiringsAreSpaced(p, ticks);
    var fired := Run(p, ticks).1;
    FiringsAreTickTimes(p, ticks);
  }

  /** With a five-second interval, a generator placed at time 0 emits at
      most two suns in its first twelve seconds, however often it ticks. */
  lemma AtMostTwoSunsInTwelveSeconds(cfg: GameConfig, id: nat, cell: Option<CellRef>, ticks: seq<Tick>)
    requires HasPlantEntries(cfg) && cfg.game.sunFallInterval == 5.0
    requires forall j :: 0 <= j < |ticks| ==> ticks[j].now <= 12.0
    ensures |Run(NewGenerator(cfg, id, cell, 0.0), ticks).1| <= 2
  {
    EmissionsBounded(NewGenerator(cfg, id, cell, 0.0), ticks, 12.0);
  }

  /** Running over two tick runs one after the other is running over the
      first, then over the second from where the first left the plant. */
  lemma {:induction false} RunAppend(p: Plant, a: seq<Tick>, b: seq<Tick>)
    ensures var first := Run(p, a);
      var second := Run(first.0, b);
      Run(p, a + b) == (second.0, first.1 + second.1)
    decreases |a|
  {
    if |a| == 0 {
      assert a + b == b;
      assert Run(p, a).0 == p && Run(p, a).1 == [];
      assert Run(p, a).1 + Run(p, b).1 == Run(p, b).1;
    } else {
      var acted := MakeAction(p, a[0].zombies, a[0].now);
      assert (a + b)[0] == a[0];
      assert (a + b)[1..] == a[1..] + b;
      RunAppend(acted.plant, a[1..], b);
      var head: seq<real> := if |acted.events| == 1 then [a[0].now] else [];
      var first, second := Run(p, a), Run(Run(p, a).0, b);
      assert first == (Run(acted.plant, a[1..]).0, head + Run(acted.plant, a[1..]).1);
      assert Run(p, a + b) == (Run(acted.plant, a[1..] + b).0, head + Run(acted.plant, a[1..] + b).1);
      assert Run(p, a + b).0 == second.0;
      assert Run(p, a + b).1 == head + (Run(acted.plant, a[1..]).1 + second.1);
      assert Run(p, a + b).1 == first.1 + second.1;
    }
  }

  /** A generator whose interval has not elapsed on any tick stays as it is
      and emits nothing. */
  lemma {:induction false} QuietGenerator(p: Plant, ticks: seq<Tick>)
    requires p.routine.Generating?
    requires forall j :: 0 <= j < |ticks| ==> ticks[j].now - p.routine.lastSpawnTime < p.routine.spawnSunDelay
    ensures Run(p, ticks) == (p, [])
    decreases |ticks|
  {
    if |ticks| > 0 {
      var acted := MakeAction(p, ticks[0].zombies, ticks[0].now);
      assert !TimerDue(p.routine, ticks[0].now);
      assert acted == Acted(p, []);
      QuietGenerator(p, ticks[1..]);
      assert Run(p, ticks).0 == p;
      assert Run(p, ticks).1 == [];
    }
  }

  /** A generator that is due on the first tick, and not due again within
      the run, emits exactly once, at that tick, and restarts its timer there. */
  lemma FireThenQuiet(p: Plant, ticks: seq<Tick>)
    requires p.routine.Generating? && |ticks| > 0
    requires ticks[0].now - p.routine.lastSpawnTime >= p.routine.spawnSunDelay
    requires forall j :: 1 <= j < |ticks| ==> ticks[j].now - ticks[0].now < p.routine.spawnSunDelay
    ensures Run(p, ticks).1 == [ticks[0].now]
    ensures Run(p, ticks).0 == p.(routine := Generating(p.routine.spawnSunDelay, ticks[0].now))
  {
    var acted := MakeAction(p, ticks[0].zombies, ticks[0].now);
    QuietGenerator(acted.plant, ticks[1..]);
  }

  /** The clock readings of the first `n` frames at 60 frames per second,
      starting at time 0. */
  function SixtyFps(n: nat): (ticks: seq<Tick>)
    ensures |ticks| == n
    ensures forall k :: 0 <= k < n ==> ticks[k].now * 60.0 == k as real
  {
    seq(n, k requires 0 <= k < n => Tick([], k as real / 60.0))
  }

  /** At 60 frames per second over the first twelve seconds (frames 0 to
      720), a generator placed at time 0 with a five-second interval emits
      exactly two suns, at 5 and at 10 seconds. */
  lemma TwoSunsInTwelveSecondsAtSixtyFps(cfg: GameConfig, id: nat, cell: Option<CellRef>)
    requires HasPlantEntries(cfg) && cfg.game.sunFallInterval == 5.0
    ensures Run(NewGenerator(cfg, id, cell, 0.0), SixtyFps(721)).1 == [5.0, 10.0]
  {
    var g := NewGenerator(cfg, id, cell, 0.0);
    var ticks := SixtyFps(721);
    var early, middle, late := ticks[..300], ticks[300..600], ticks[600..];
    assert ticks == early + (middle + late);
    QuietGenerator(g, early);
    FireThenQuiet(g, middle);
    var g1 := g.(routine := Generating(5.0, 5.0));
    FireThenQuiet(g1, late);
    RunAppend(g, middle, late);
    RunAppend(g, early, middle + late);
  }
}

=== FILE: results.dfy ===
/** Failure-carrying wrappers shared by every module of the model. */
module Results {

  /** A value that may be absent (a C# null or a nullable value type). */
  datatype Option<T> = None | Some(value: T)

  /** The exceptions the modelled code can throw. */
  datatype Fault =
    | ArgumentOutOfRange          // an enum value that a `switch` has no arm for (`_ => throw`)
    | SwitchExpressionUnmatched   // a `switch` expression with no default arm

  /** The outcome of an operation that may throw. */
  datatype Result<T> = Ok(value: T) | Throws(fault: Fault)
}

=== FILE: top_scores.dfy ===
/**
  The best-scores list kept per user: LINQ `OrderByDescending(s => s)`
  followed by `Take(3)`, as applied by UserService.UpdateUserScore.
 */
module TopScores {

  /** Non-increasing order. */
  predicate Descending(s: seq<real>)
  {
    forall i, j :: 0 <= i < j < |s| ==> s[i] >= s[j]
  }

  /** Every element of `s` is at most `b`. */
  predicate AllAtMost(s: seq<real>, b: real)
  {
    forall i :: 0 <= i < |s| ==> s[i] <= b
  }

  /** Inserts `x` into a non-increasing list ahead of the first element
      smaller than it. */
  function Insert(x: real, s: seq<real>): (r: seq<real>)
    requires Descending(s)
    ensures Descending(r)
    ensures multiset(r) == multiset(s) + multiset{x}
    ensures |r| == |s| + 1
    ensures forall b :: AllAtMost(s, b) && x <= b ==> AllAtMost(r, b)
    decreases |s|
  {
    if |s| == 0 then [x]
    else if x >= s[0] then [x] + s
    else
      var rest := Insert(x, s[1..]);
      assert AllAtMost(s[1..], s[0]);
      assert AllAtMost(rest, s[0]);
      ConsDescending(s[0], rest);
      assert s == [s[0]] + s[1..];
      [s[0]] + rest
  }

  /** A head no smaller than anything in a non-increasing tail keeps the
      list non-increasing. */
  lemma ConsDescending(h: real, t: seq<real>)
    requires Descending(t) && AllAtMost(t, h)
    ensures Descending([h] + t)
  {
    var r := [h] + t;
    forall i, j | 0 <= i < j < |r|
      ensures r[i] >= r[j]
    {
      assert r[j] == t[j - 1];
      if i > 0 {
        assert r[i] == t[i - 1];
      }
    }
  }

  /** `OrderByDescending(s => s)` on the values: a non-increasing
      rearrangement of the input. */
  function SortDescending(s: seq<real>): (r: seq<real>)
    ensures Descending(r)
    ensures multiset(r) == multiset(s)
    ensures |r| == |s|
    decreases |s|
  {
    if |s| == 0 then []
    else
      assert s == [s[0]] + s[1..];
      Insert(s[0], SortDescending(s[1..]))
  }

  function Min(a: int, b: int): int { if a <= b then a else b }

  /** `OrderByDescending(s => s).Take(3)`: the three largest values, largest
      first; nothing left out is larger than anything kept. */
  function Top3(s: seq<real>): (r: seq<real>)
    ensures |r| == Min(3, |s|)
    ensures Descending(r)
    ensures multiset(r) <= multiset(s)
    ensures forall x :: x in multiset(s) - multiset(r) ==> forall i :: 0 <= i < |r| ==> x <= r[i]
  {
    var t := SortDescending(s);
    var k := Min(3, |t|);
    PrefixDominatesRest(t, k);
    t[..k]
  }

  /** In a non-increasing list, whatever a prefix leaves out is at most
      every element of the prefix. */
  lemma PrefixDominatesRest(t: seq<real>, k: nat)
    requires Descending(t) && k <= |t|
    ensures multiset(t[..k]) <= multiset(t)
    ensures forall x :: x in multiset(t) - multiset(t[..k]) ==> forall i :: 0 <= i < k ==> x <= t[i]
  {
    assert t == t[..k] + t[k..];
    assert multiset(t) == multiset(t[..k]) + multiset(t[k..]);
    forall x | x in multiset(t) - multiset(t[..k])
      ensures forall i :: 0 <= i < k ==> x <= t[i]
    {
      assert x in multiset(t[k..]);
      var j :| 0 <= j < |t[k..]| && t[k..][j] == x;
      assert t[k + j] == x;
    }
  }

  /** The best score is kept in front: the first entry is at least every
      value of the input. */
  lemma Top3KeepsTheBest(s: seq<real>)
    requires |s| > 0
    ensures forall i :: 0 <= i < |s| ==> s[i] <= Top3(s)[0]
  {
    var r := Top3(s);
    forall i | 0 <= i < |s|
      ensures s[i] <= r[0]
    {
      if s[i] in multiset(r) {
        var j :| 0 <= j < |r| && r[j] == s[i];
      } else {
        assert s[i] in multiset(s) - multiset(r);
      }
    }
  }
}

=== FILE: user_service.dfy ===
/**
  The account service (Services/UserService.cs) over its in-memory user
  list: sign-up, sign-in and sign-out, the per-user best scores, and the
  saved game session.  Reading and writing users.json is not modelled; the
  password hash (SHA-256, Base64) is the parameter `hash`, about which
  nothing is assumed.
 */
module Users {

  import opened Results
  import opened Sessions
  import Collections
  import TopScores

  datatype User = User(login: string, password: string, topScores: seq<real>, activeSession: Option<Session>)

  /** The user list and the current user, as a position in that list (the
      list only grows, so positions are stable). */
  datatype Accounts = Accounts(users: seq<User>, current: Option<nat>)

  /** The current user, if any, is one of the listed users. */
  predicate Valid(a: Accounts)
  {
    a.current.Some? ==> a.current.value < |a.users|
  }

  /** No two users share a login. */
  predicate UniqueLogins(users: seq<User>)
  {
    forall i, j :: 0 <= i < j < |users| ==> users[i].login != users[j].login
  }

  predicate LoginTaken(users: seq<User>, login: string)
  {
    exists i :: 0 <= i < |users| && users[i].login == login
  }

  /** The first user with this login. */
  function FindLogin(users: seq<User>, login: string): Option<nat>
  {
    Collections.FirstIndex(users, (u: User) => u.login == login)
  }

  /** `SignUp`: refuses a login already in use; otherwise appends one user
      with the hashed password and no scores.  The current user is not
      touched. */
  function SignUp(a: Accounts, hash: string -> string, login: string, password: string): (r: (Accounts, bool))
    ensures LoginTaken(a.users, login) ==> !r.1 && r.0 == a
    ensures !LoginTaken(a.users, login) ==>
      r.1 && r.0 == a.(users := a.users + [User(login, hash(password), [], None)])
  {
    if Collections.Any(a.users, (u: User) => u.login == login) then (a, false)
    else (a.(users := a.users + [User(login, hash(password), [], None)]), true)
  }

  /** Signing up only ever keeps logins unique and the state valid. */
  lemma SignUpKeepsLoginsUnique(a: Accounts, hash: string -> string, login: string, password: string)
    requires UniqueLogins(a.users) && Valid(a)
    ensures UniqueLogins(SignUp(a, hash, login, password).0.users)
    ensures Valid(SignUp(a, hash, login, password).0)
  {
    var r := SignUp(a, hash, login, password).0;
    if !LoginTaken(a.users, login) {
      forall i, j | 0 <= i < j < |r.users|
        ensures r.users[i].login != r.users[j].login
      {
        if j == |a.users| {
          assert r.users[i] == a.users[i];
        }
      }
    }
  }

  /** Some user has this login and this stored password. */
  predicate Matches(users: seq<User>, login: string, hashed: string)
  {
    exists i :: 0 <= i < |users| && users[i].login == login && users[i].password == hashed
  }

  /** `SignIn`: succeeds exactly when a user has this login and the hash of
      this password; the first such user becomes current.  A failure
      changes nothing. */
  function SignIn(a: Accounts, hash: string -> string, login: string, password: string): (r: (Accounts, bool))
    ensures r.1 <==> Matches(a.users, login, hash(password))
    ensures r.0.users == a.users
    ensures !r.1 ==> r.0 == a
    ensures r.1 ==>
      && r.0.current.Some? && r.0.current.value < |a.users|
      && a.users[r.0.current.value].login == login
      && a.users[r.0.current.value].password == hash(password)
  {
    var hashed := hash(password);
    match Collections.FirstIndex(a.users, (u: User) => u.login == login && u.password == hashed)
    case None => (a, false)
    case Some(k) => (a.(current := Some(k)), true)
  }

  /** `SignOut`. */
  function SignOut(a: Accounts): (r: Accounts)
    ensures r.current.None? && r.users == a.users
  {
    a.(current := None)
  }

  /** The user the current user's login resolves to: the first user with
      that login, which exists because the current user has it. */
  function Resolve(a: Accounts): (k: nat)
    requires Valid(a) && a.current.Some?
    ensures k < |a.users| && a.users[k].login == a.users[a.current.value].login
    ensures k <= a.current.value
    ensures UniqueLogins(a.users) ==> k == a.current.value
  {
    FindLogin(a.users, a.users[a.current.value].login).value
  }

  /** `UpdateUserScore`: without a current user nothing happens; otherwise
      the resolved user's scores become the three largest of the old ones
      and the new one, and that user becomes current.  Nobody else
      changes. */
  function UpdateUserScore(a: Accounts, score: real): (r: Accounts)
    requires Valid(a)
    ensures Valid(r)
    ensures a.current.None? ==> r == a
    ensures a.current.Some? ==>
      var k := Resolve(a);
      && r.current == Some(k)
      && r.users == a.users[k := a.users[k].(topScores := TopScores.Top3(a.users[k].topScores + [score]))]
  {
    if a.current.None? then a
    else
      var k := Resolve(a);
      var u := a.users[k];
      a.(users := a.users[k := u.(topScores := TopScores.Top3(u.topScores + [score]))], current := Some(k))
  }

  /** After recording a score the current user holds at most three scores,
      best first, drawn from the old scores and the new one, and with
      nothing better left out. */
  lemma UpdatedScoresAreTopThree(a: Accounts, score: real)
    requires Valid(a) && a.current.Some?
    ensures var r := UpdateUserScore(a, score);
      var old_ := a.users[Resolve(a)].topScores + [score];
      var top := r.users[r.current.value].topScores;
      && |top| <= 3 && |top| == TopScores.Min(3, |old_|)
      && TopScores.Descending(top)
      && multiset(top) <= multiset(old_)
      && (forall x :: x in multiset(old_) - multiset(top) ==> forall i :: 0 <= i < |top| ==> x <= top[i])
  {
  }

  /** With unique logins, the resolved user is the current user itself. */
  lemma UpdateKeepsCurrentUser(a: Accounts, score: real)
    requires Valid(a) && a.current.Some? && UniqueLogins(a.users)
    ensures UpdateUserScore(a, score).current == a.current
    ensures UniqueLogins(UpdateUserScore(a, score).users)
  {
    var r := UpdateUserScore(a, score);
    assert forall i :: 0 <= i < |r.users| ==> r.users[i].login == a.users[i].login;
  }

  /** `SaveGameSession`: without a current user nothing happens; otherwise
      the session's lists are refreshed from its live collections and it is
      stored on the resolved user, who becomes current. */
  function SaveGameSession(a: Accounts, s: Session): (r: Accounts)
    requires Valid(a)
    ensures Valid(r)
    ensures a.current.None? ==> r == a
    ensures a.current.Some? ==>
      var k := Resolve(a);
      && r.current == Some(k)
      && r.users == a.users[k := a.users[k].(activeSession := Some(SyncFromObservable(s)))]
  {
    if a.current.None? then a
    else
      var k := Resolve(a);
      a.(users := a.users[k := a.users[k].(activeSession := Some(SyncFromObservable(s)))], current := Some(k))
  }

  /** `LoadGameSession`: nothing without a current user holding a session;
      otherwise the stored session, with its live collections refilled from
      its lists (the refill happens on the stored object too). */
  function LoadGameSession(a: Accounts): (r: (Accounts, Option<Session>))
    requires Valid(a)
    ensures Valid(r.0)
    ensures (a.current.None? || a.users[a.current.value].activeSession.None?) ==> r.1.None? && r.0 == a
    ensures a.current.Some? && a.users[a.current.value].activeSession.Some? ==>
      var stored := a.users[a.current.value].activeSession.value;
      && r.1 == Some(SyncToObservable(stored))
      && r.0 == a.(users := a.users[a.current.value := a.users[a.current.value].(activeSession := r.1)])
  {
    if a.current.None? || a.users[a.current.value].activeSession.None? then (a, None)
    else
      var k := a.current.value;
      var session := SyncToObservable(a.users[k].activeSession.value);
      (a.(users := a.users[k := a.users[k].(activeSession := Some(session))]), Some(session))
  }

  /** `ClearGameSession`: without a current user nothing happens; otherwise
      the resolved user no longer holds a session and becomes current. */
  function ClearGameSession(a: Accounts): (r: Accounts)
    requires Valid(a)
    ensures Valid(r)
    ensures a.current.None? ==> r == a
    ensures a.current.Some? ==>
      var k := Resolve(a);
      && r.current == Some(k)
      && r.users == a.users[k := a.users[k].(activeSession := None)]
      && LoadGameSession(r).1.None?
  {
    if a.current.None? then a
    else
      var k := Resolve(a);
      a.(users := a.users[k := a.users[k].(activeSession := None)], current := Some(k))
  }

  /** Saving a session and loading it back gives the same entities and the
      same scalars. */
  lemma SaveThenLoad(a: Accounts, s: Session)
    requires Valid(a) && a.current.Some?
    ensures var loaded := LoadGameSession(SaveGameSession(a, s)).1;
      && loaded.Some? && SameLive(loaded.value, s) && SameScalars(loaded.value, s)
  {
  }
}

=== FILE: zombies.dfy ===
/**
  Zombie behaviour (Models/Zombie/BaseZombie.cs with the ZombieBoy and
  ZombieGirl constructors folded in as a stats lookup): construction,
  the one-shot kill latch, and the per-tick eat-or-advance step.
 */
module Zombies {

  import opened Results
  import opened Config
  import opened Entities
  import opened FieldCells
  import opened Collections
  import Plants

  /** `(int)Math.Ceiling(x)`. */
  function Ceiling(x: real): (c: int)
    ensures c as real - 1.0 < x <= c as real
  {
    -((-x).Floor)
  }

  /** The ZombieBoy / ZombieGirl constructor: BaseZombie places the zombie
      half a cell beyond the last column, a tenth of a cell into its row;
      the subclass copies health, damage and speed from its config entry. */
  function NewZombie(cfg: GameConfig, id: nat, kind: ZombieType, columns: int, row: int, cellSize: real): (z: Zombie)
    requires HasZombieEntries(cfg)
    requires kind == ZombieBoy || kind == ZombieGirl
    ensures z.x == cellSize * columns as real + 0.5 * cellSize
    ensures z.y == cellSize * row as real + 0.1 * cellSize
    ensures z.health == z.maxHealth == cfg.zombies[kind].health as real
    ensures z.speed == cfg.zombies[kind].speed && z.damage == cfg.zombies[kind].damage as real
    ensures z.id == id && z.kind == kind && z.row == row && z.columns == columns && z.cellSize == cellSize
    ensures z.currentCell.None? && z.state == Alive && !z.killRequested
  {
    var stats := cfg.zombies[kind];
    Zombie(id, kind, row, columns, cellSize,
           cellSize * columns as real + 0.5 * cellSize,
           cellSize * row as real + 0.1 * cellSize,
           stats.health as real, stats.health as real, stats.speed, stats.damage as real,
           None, Alive, false)
  }

  /** A zombie after Kill, and whether KillRequested was raised. */
  datatype Killed = Killed(zombie: Zombie, raised: bool)

  /** BaseZombie.Kill: raises KillRequested only the first time. */
  function Kill(z: Zombie): (r: Killed)
    ensures r.raised <==> !z.killRequested
    ensures r.zombie == z.(killRequested := true)
  {
    if z.killRequested then Killed(z, false)
    else Killed(z.(killRequested := true), true)
  }

  /** `n` successive Kill calls; returns the zombie and how many raised. */
  function KillRepeatedly(z: Zombie, n: nat): (Zombie, nat)
    decreases n
  {
    if n == 0 then (z, 0)
    else
      var first := Kill(z);
      var rest := KillRepeatedly(first.zombie, n - 1);
      (rest.0, rest.1 + if first.raised then 1 else 0)
  }

  /** However many times Kill is called, KillRequested is raised at most
      once, and exactly once when the latch was still open. */
  lemma {:induction false} KillRaisesAtMostOnce(z: Zombie, n: nat)
    ensures KillRepeatedly(z, n).1 <= 1
    ensures KillRepeatedly(z, n).1 == 1 <==> n > 0 && !z.killRequested
    ensures n > 0 ==> KillRepeatedly(z, n).0.killRequested
    decreases n
  {
    if n > 0 {
      KillRaisesAtMostOnce(Kill(z).zombie, n - 1);
    }
  }

  /** The zombie's current cell, if any, lies in its own row and inside the
      board's columns. */
  predicate ZombieWF(z: Zombie)
  {
    z.currentCell.Some? ==>
      z.currentCell.value.row == z.row && 0 <= z.currentCell.value.column < z.columns
  }

  /** The row list a zombie is built with: the cells of `row` in column order. */
  predicate RowOfCells(cells: seq<FieldCell>, row: int, columns: int)
  {
    && |cells| == columns
    && forall k :: 0 <= k < |cells| ==> cells[k].row == row && cells[k].column == k
  }

  /** Everything but the position and the current cell is as in `z`. */
  predicate SameBody(a: Zombie, z: Zombie)
  {
    a == z.(x := a.x, currentCell := a.currentCell)
  }

  /** The distance walked in one tick. */
  function Stride(z: Zombie, fps: real): real
    requires fps > 0.0
  {
    z.speed * z.cellSize / 120.0 / fps
  }

  /** The current cell holds a plant. */
  predicate Eating(z: Zombie, rowCells: seq<FieldCell>)
    requires ZombieWF(z) && RowOfCells(rowCells, z.row, z.columns)
  {
    z.currentCell.Some? && rowCells[z.currentCell.value.column].plant.Some?
  }

  /** The cell a zombie at position `x` is in: the column is
      ceil((x + cellSize/2) / cellSize), counted from 1; outside 1..Columns
      the previous cell is kept. */
  function CellAfterMove(z: Zombie, rowCells: seq<FieldCell>, x: real): (c: Option<CellRef>)
    requires z.cellSize > 0.0
    requires ZombieWF(z) && RowOfCells(rowCells, z.row, z.columns)
    ensures var col := Ceiling((x + 0.5 * z.cellSize) / z.cellSize);
      && (1 <= col <= z.columns ==> c == Some(CellRef(z.row, col - 1)))
      && (!(1 <= col <= z.columns) ==> c == z.currentCell)
  {
    var col := Ceiling((x + 0.5 * z.cellSize) / z.cellSize);
    if col <= z.columns && col >= 1 then Some(Ref(rowCells[col - 1])) else z.currentCell
  }

  /** A zombie, its row's cells and the plant collection after one action,
      with the events raised by plants during it. */
  datatype ZombieStep = ZombieStep(
    zombie: Zombie,
    rowCells: seq<FieldCell>,
    plants: seq<Plant>,
    events: seq<Plants.PlantEvent>)

  /** The plant a bite reduces to, before any kill. */
  function Bitten(p: Plant, z: Zombie, fps: real): Plant
    requires fps > 0.0
  {
    p.(health := p.health - z.damage / fps)
  }

  /** BaseZombie.MakeAction.  A dead zombie does nothing.  If its cell holds
      a plant it bites it (and kills it and empties the cell when the bite
      leaves it without health); otherwise it walks left and re-derives its
      cell.  A cell whose plant is not in `plants` is still a plant in the
      way: the zombie stops, but the model has no health to reduce. */
  function MakeAction(z: Zombie, rowCells: seq<FieldCell>, plants: seq<Plant>, fps: real): (r: ZombieStep)
    requires fps > 0.0 && z.cellSize > 0.0
    requires ZombieWF(z) && RowOfCells(rowCells, z.row, z.columns)
    ensures ZombieWF(r.zombie) && RowOfCells(r.rowCells, z.row, z.columns)
    ensures SameBody(r.zombie, z)
    ensures |r.plants| == |plants|
    ensures forall i :: 0 <= i < |plants| ==> r.plants[i].id == plants[i].id
    ensures z.state == Dead ==> r == ZombieStep(z, rowCells, plants, [])
    ensures z.state != Dead && Eating(z, rowCells) ==>
      && r.zombie == z
      && var c := z.currentCell.value.column;
         var found := IndexOfId(plants, PlantIdOf, rowCells[c].plant.value);
         && (found.None? ==> r == ZombieStep(z, rowCells, plants, []))
         && (found.Some? ==>
              var bitten := Bitten(plants[found.value], z, fps);
              && r.plants == plants[found.value := bitten]
              && (bitten.health <= 0.0 ==>
                    r.rowCells == rowCells[c := rowCells[c].(plant := None)]
                    && r.events == [Plants.KillRequested(bitten)])
              && (bitten.health > 0.0 ==> r.rowCells == rowCells && r.events == []))
    ensures z.state != Dead && !Eating(z, rowCells) ==>
      && r.zombie.x == z.x - Stride(z, fps)
      && r.zombie.currentCell == CellAfterMove(z, rowCells, r.zombie.x)
      && r.rowCells == rowCells && r.plants == plants && r.events == []
  {
    if z.state == Dead then ZombieStep(z, rowCells, plants, [])
    else if Eating(z, rowCells) then
      var c := z.currentCell.value.column;
      match IndexOfId(plants, PlantIdOf, rowCells[c].plant.value)
      case None => ZombieStep(z, rowCells, plants, [])
      case Some(k) =>
        var bitten := Bitten(plants[k], z, fps);
        if bitten.health <= 0.0 then
          var killed := Plants.Kill(bitten);
          ZombieStep(z, rowCells[c := rowCells[c].(plant := None)], plants[k := killed.plant], killed.events)
        else ZombieStep(z, rowCells, plants[k := bitten], [])
    else
      var x := z.x - Stride(z, fps);
      ZombieStep(z.(x := x, currentCell := CellAfterMove(z, rowCells, x)), rowCells, plants, [])
  }

  /** A row without plants. */
  predicate EmptyRow(rowCells: seq<FieldCell>)
  {
    forall k :: 0 <= k < |rowCells| ==> rowCells[k].plant.None?
  }

  /** `n` successive actions of one zombie on its row. */
  function Walk(z: Zombie, rowCells: seq<FieldCell>, plants: seq<Plant>, fps: real, n: nat): (r: ZombieStep)
    requires fps > 0.0 && z.cellSize > 0.0
    requires ZombieWF(z) && RowOfCells(rowCells, z.row, z.columns)
    ensures ZombieWF(r.zombie) && RowOfCells(r.rowCells, z.row, z.columns) && SameBody(r.zombie, z)
    decreases n
  {
    if n == 0 then ZombieStep(z, rowCells, plants, [])
    else
      var first := MakeAction(z, rowCells, plants, fps);
      Walk(first.zombie, first.rowCells, first.plants, fps, n - 1)
  }

  /** The distance covered by `n` strides of length `s`, step by step. */
  function Strides(n: nat, s: real): real
  {
    if n == 0 then 0.0 else Strides(n - 1, s) + s
  }

  /** `n` strides of length `s` cover `n * s`. */
  lemma {:induction false} StridesIsProduct(n: nat, s: real)
    ensures Strides(n, s) == n as real * s
  {
    if n > 0 {
      StridesIsProduct(n - 1, s);
      var m := (n - 1) as real;
      assert m * s + s == (m + 1.0) * s;
    }
  }

  /** On a row without plants a live zombie walks exactly one stride per
      tick and the row stays empty. */
  lemma {:induction false} WalkOnEmptyRow(z: Zombie, rowCells: seq<FieldCell>, plants: seq<Plant>, fps: real, n: nat)
    requires fps > 0.0 && z.cellSize > 0.0 && z.state != Dead
    requires ZombieWF(z) && RowOfCells(rowCells, z.row, z.columns) && EmptyRow(rowCells)
    ensures Walk(z, rowCells, plants, fps, n).zombie.x == z.x - Strides(n, Stride(z, fps))
    ensures Walk(z, rowCells, plants, fps, n).rowCells == rowCells
    decreases n
  {
    if n > 0 {
      var first := MakeAction(z, rowCells, plants, fps);
      StepOnEmptyRow(z, rowCells, plants, fps);
      WalkOnEmptyRow(first.zombie, first.rowCells, first.plants, fps, n - 1);
      WalkUnfolds(z, rowCells, plants, fps, n);
    }
  }

  /** n actions are one action followed by n - 1 more. */
  lemma WalkUnfolds(z: Zombie, rowCells: seq<FieldCell>, plants: seq<Plant>, fps: real, n: nat)
    requires fps > 0.0 && z.cellSize > 0.0 && n > 0
    requires ZombieWF(z) && RowOfCells(rowCells, z.row, z.columns)
    ensures var first := MakeAction(z, rowCells, plants, fps);
      Walk(z, rowCells, plants, fps, n) == Walk(first.zombie, first.rowCells, first.plants, fps, n - 1)
  {
  }

  /** One action on a row without plants: a live zombie walks one stride,
      stays live with the same stride, and the row is untouched. */
  lemma StepOnEmptyRow(z: Zombie, rowCells: seq<FieldCell>, plants: seq<Plant>, fps: real)
    requires fps > 0.0 && z.cellSize > 0.0 && z.state != Dead
    requires ZombieWF(z) && RowOfCells(rowCells, z.row, z.columns) && EmptyRow(rowCells)
    ensures var first := MakeAction(z, rowCells, plants, fps);
      && first.zombie.x == z.x - Stride(z, fps)
      && first.rowCells == rowCells
      && first.zombie.state == z.state
      && Stride(first.zombie, fps) == Stride(z, fps)
  {
    assert !Eating(z, rowCells);
  }

  /** The number of ticks after which a zombie at `x` walking `stride` per
      tick has reached the left edge. */
  function TicksToEdge(x: real, stride: real): (n: nat)
    requires stride > 0.0
    ensures x - n as real * stride <= 0.0
  {
    if x <= 0.0 then 0
    else
      var n := Ceiling(x / stride);
      assert n as real * stride >= (x / stride) * stride;
      n
  }

  /** A positive speed on a positive cell size gives a positive stride. */
  lemma StridePositive(z: Zombie, fps: real)
    requires fps > 0.0 && z.cellSize > 0.0 && z.speed > 0.0
    ensures Stride(z, fps) > 0.0
  {
    var product := z.speed * z.cellSize;
    assert product > 0.0;
    var perFrame := product / 120.0;
    assert perFrame > 0.0;
  }

  /** A live zombie with positive speed on a row without plants reaches the
      left edge (x <= 0) after TicksToEdge ticks. */
  lemma ReachesLeftEdge(z: Zombie, rowCells: seq<FieldCell>, plants: seq<Plant>, fps: real)
    requires fps > 0.0 && z.cellSize > 0.0 && z.speed > 0.0 && z.state != Dead
    requires ZombieWF(z) && RowOfCells(rowCells, z.row, z.columns) && EmptyRow(rowCells)
    ensures Stride(z, fps) > 0.0
    ensures Walk(z, rowCells, plants, fps, TicksToEdge(z.x, Stride(z, fps))).zombie.x <= 0.0
  {
    StridePositive(z, fps);
    var s := Stride(z, fps);
    var n := TicksToEdge(z.x, s);
    var covered := n as real * s;
    assert z.x - covered <= 0.0;
    StridesIsProduct(n, s);
    WalkOnEmptyRow(z, rowCells, plants, fps, n);
    assert Walk(z, rowCells, plants, fps, n).zombie.x == z.x - covered;
  }
}
